=== FILE: README.md ===
# search-bot-rs in Dafny

A model of the deterministic core of search-bot-rs, a Telegram bot that archives group messages into
Elasticsearch and lets members search them. Each component is a pure function or a fold over a finite
sequence of events. Elasticsearch, MongoDB, Telegram, clocks and timers become parameters: the reply
a request gets, the cursor a query yields, the current time.

Modules, one per component:

- `Common`: `Option`/`Result`, Rust integer ranges, truncating division, `as i32` wrap-around, ASCII
  lower-casing, `trim_start_matches('@')`.
- `Decimal`: Rust's decimal `Display` for integers, and `usize::from_str`.
- `Message`: `MessageType` and its display/serde names. Also the `ChatMessage` record, as the union of
  the fields of the index document and of the record the recorder builds, and its index document.
- `Bulk`: the document id `"{chat_id}_{message_id}"`, the two-lines-per-message bulk body, and the
  reading of a bulk reply. The migration tool and the live indexer share these.
- `Migrate`: the legacy backfill tool. It covers document parsing, conversion and watermark resolution.
  It also covers the per-group batch loop as a fold over cursor results, and the run over all groups.
- `Indexer`: the live batch indexer. Its queue and flush loop become a fold over
  `Recv(msg) | Tick | Closed` events.
- `Search`: the bool query as a datatype, with its meaning as a predicate on messages. Also pagination
  and the parsing of the search reply.
- `Callback`: the search UI. This covers query splitting, HTML escaping and message links. It also
  covers the result listing, the inline keyboard, and how callback data changes the session map.
- `UserCache`: the username ↔ user-id cache.
- `Recorder`: the record-or-skip decision for incoming messages, text extraction, and kind
  classification.

## Model

| member | source | states |
|---|---|---|
| Common.TruncDiv | src/bin/migrate.rs:444 | Rust `/` by a positive divisor rounds toward zero, for negative dividends as well |
| Common.WrapI32 | src/bin/migrate.rs:453 | `as i32` lands in the i32 range, agrees with the input modulo 2^32, and keeps i32 values unchanged |
| Common.LowerIdempotent | src/models/user_cache.rs:31-32 | lower-casing a lower-cased name changes nothing |
| Common.TrimAt | src/models/user_cache.rs:54 | `trim_start_matches('@')` leaves no leading '@' and never lengthens the text |
| Common.TrimAtStripsAts | src/bot/callback.rs:208 | exactly the leading run of '@' is removed, and the rest of the text is kept |
| Common.CountTrue | src/bin/migrate.rs:506-514 | the number of items carrying an error object is at most the number of items |
| Decimal.IntToStringRoundTrip | src/bin/migrate.rs:483 | the decimal text of an i64 in a document id reads back as the same number |
| Decimal.IntToString | src/bot/callback.rs:277 | decimal text is non-empty, has no '_', ':' or '/' that could be confused with the separators around it, and starts with '-' exactly for negatives |
| Decimal.IntToStringInjective | src/es/indexer.rs:91 | different numbers never print alike |
| Decimal.ParseUsize | src/bot/callback.rs:101 | a page number parses only from an optional '+' followed by one or more decimal digits, with no '-', and its value fits in usize |
| Decimal.ParseUsizeRoundTrip | src/bot/callback.rs:101 | a page number written by the keyboard parses back to itself |
| Message.TypeName | src/models/message.rs:28-41 | every kind displays as a non-empty all-lowercase word |
| Message.TypeNameInjective | src/models/message.rs:28-41 | two kinds display alike only when they are the same kind, and there are exactly eight kinds |
| Message.VariantSpelling | src/models/message.rs:15-26 | each variant's name is its display word with the first letter capitalised |
| Message.DisplayIsSerdeName | src/models/message.rs:16 | the display word is the variant's snake_case serde name |
| Message.TypeNameRoundTrip | src/models/message.rs:16 | the stored kind name deserializes back to the same kind |
| Message.ParseTypeName | src/models/message.rs:16 | a recognised kind name is the display word of the kind it reads as |
| Message.Deserialize | src/es/search.rs:178 | a document that reads as a message has that message's ids under `message_id` and `chat_id` |
| Message.SerializeOmitsMissingUser | src/models/message.rs:7-8 | the document has `user_id` exactly when the message has a sender, with the sender's id |
| Message.SerializeRoundTrip | src/models/message.rs:3-13 | reading a stored document back recovers message id, chat id, sender id, text, date and kind |
| Bulk.DocIdRoundTrip | src/bin/migrate.rs:483 | the document id splits back into the chat id and the message id |
| Bulk.DocIdInjective | src/es/indexer.rs:91 | two messages share a document id only when both ids agree, so writes are idempotent per message |
| Bulk.Body | src/bin/migrate.rs:480-489 | the bulk body has 2·n lines: for each message in order, an action naming its id, then its document |
| Bulk.BodyAppend | src/bin/migrate.rs:482-489 | the body of two batches together is the first body followed by the second |
| Bulk.Accepted | src/bin/migrate.rs:497-520 | a reply counts only with a 2xx status and a readable body; the count is n less the failed items when `errors` is set, n otherwise, and never more than n |
| Migrate.FirstSome | src/bin/migrate.rs:415-420 | the first candidate that reads wins, and there is one exactly when some candidate reads |
| Migrate.MessageIdOrder | src/bin/migrate.rs:415-420 | message id: `msg_ctx.message_id` as i64 then i32, then top-level i64 then i32 |
| Migrate.ChatIdOrder | src/bin/migrate.rs:423-427 | chat id: `group_id` i64, `chat_id` i64, `group_id` i32, `chat_id` i32 |
| Migrate.DateOrder | src/bin/migrate.rs:442-449 | a datetime `timestamp` or `date` (millis divided by 1000 toward zero) wins over integer `date`/`timestamp`, i64 before i32 |
| Migrate.ParseMongoDocument | src/bin/migrate.rs:413-468 | parsing fails exactly when message id, chat id or date is missing; sender, text and kind default to none, "" and "0" |
| Migrate.FromMongo | src/bin/migrate.rs:78-97 | dates above 4_000_000_000 become seconds by truncating division, others stay; ids, sender and text are copied; the kind is always "text" |
| Migrate.MillisBecomeSeconds | src/bin/migrate.rs:81-82 | a millisecond date `s·1000 + r` above the threshold becomes `s` |
| Migrate.EsDoc | src/bin/migrate.rs:66-76 | the migrated document always carries `user_id`, null when there is no sender |
| Migrate.EsItems | src/bin/migrate.rs:482-488 | each migrated message is keyed by its own chat and message ids |
| Migrate.BulkIndex | src/bin/migrate.rs:471-521 | an empty batch sends nothing and counts 0; otherwise the request is the 2·n-line body and the count is the reply's accepted count |
| Migrate.BulkPartialFailure | src/bin/migrate.rs:505-517 | five messages with two item errors in a 2xx reply count 3 |
| Migrate.CompleteBuckets | src/bin/migrate.rs:385-403 | buckets missing a key or a minimum are skipped, every complete bucket becomes a watermark, and nothing else does |
| Migrate.ResolveWatermarks | src/bin/migrate.rs:366-409 | 404 gives no groups; any other non-2xx status is an error; missing aggregations give no groups |
| Migrate.Cap | src/bin/migrate.rs:199 | batches are flushed at exactly `batch_size` messages, or at one message when `batch_size` is 0 |
| Migrate.Records | src/bin/migrate.rs:191-196 | each cursor result contributes the converted record it parses to, or a failure |
| Migrate.Flush | src/bin/migrate.rs:199-217 | a flush empties the batch; a dry run counts it all as migrated; a write the index accepts adds its accepted count to migrated; a rejected write adds the whole batch to errors |
| Migrate.TallyAppend | src/bin/migrate.rs:199-250 | the counts from batches flushed one after another add up |
| Migrate.FlushKeepsCounted | src/bin/migrate.rs:199-217 | after a flush the counters still equal the failures plus the outcomes of all flushed batches |
| Migrate.FoldCounted | src/bin/migrate.rs:191-231 | after any number of cursor results, migrated is the sum of the accepted counts and errors are the fetch and parse failures plus the messages of rejected writes |
| Migrate.ParsedSnoc | src/bin/migrate.rs:193-229 | each cursor result adds one parsed record or one failure |
| Migrate.FlushAppends | src/bin/migrate.rs:217 | a flush moves the batch, in order, behind the batches already flushed |
| Migrate.FlushFull | src/bin/migrate.rs:199-217 | flushing a full batch restores the loop invariant |
| Migrate.StepKeepsInv | src/bin/migrate.rs:191-231 | one cursor result keeps the loop invariant: flushed batches are full, the counters bound the results read, and requests match the batches |
| Migrate.FoldKeepsInv | src/bin/migrate.rs:191-231 | the invariant holds after any number of cursor results |
| Migrate.ParsedPlusFailures | src/bin/migrate.rs:191-231 | every cursor result is either a parsed record or one error |
| Migrate.Chunks | src/bin/migrate.rs:199-250 | cutting into batches loses and reorders nothing |
| Migrate.FullThenTailIsChunks | src/bin/migrate.rs:233-250 | full batches followed by one shorter non-empty batch are exactly the cut of their concatenation |
| Migrate.RunGroup | src/bin/migrate.rs:171-250 | a zero count skips the group with no writes; otherwise the batches are the records cut at the batch size; for any index, migrated is the sum of the accepted counts, and errors are one per fetch or parse failure plus every message of a rejected batch; dry runs and accepting indexes count every record |
| Migrate.TallyRejected | src/bin/migrate.rs:207-210 | when every write is rejected, the flushed batches count nothing as migrated and all their messages as errors |
| Migrate.RunGroupRejected | src/bin/migrate.rs:191-250 | with an index that rejects every write, a group migrates nothing and counts every cursor result as an error |
| Migrate.FinishChunks | src/bin/migrate.rs:233-250 | the final flush of a non-empty remainder leaves exactly the cut batches |
| Migrate.NumField | src/bin/migrate.rs:157-169 | a filter compares a numeric field by value: an Int32, an Int64 or a Double takes part, an integer with the value its getter reads |
| Migrate.SelectedAsWrittenEscapesWatermark | src/bin/migrate.rs:157-169 | the filter as written selects a document whose `msg_ctx.message_id` is the double 999.0 under watermark 1000, and the parser reads its top-level id 5000 instead |
| Migrate.RunGroupSingle | src/bin/migrate.rs:191-250 | a group whose cursor returns one parsable document writes exactly that document's record, alone |
| Migrate.RunGroupAsWrittenEscapesWatermark | src/bin/migrate.rs:157-250 | with the filter as written, that document makes the group write message 5000 although the index already holds the group from 1000 |
| Migrate.SelectedBelowWatermark | src/bin/migrate.rs:415-426 | a document the corrected filter selects parses to a record of the group's own chat, with a message id below the group's earliest indexed id. The filter requires `msg_ctx.message_id` to be an int or a long, and `group_id` to be a long, or an int with no long `chat_id` |
| Migrate.SelectedAsWrittenMisfilesChat | src/bin/migrate.rs:423-426 | the filter as written, even with the `msg_ctx.message_id` type condition, selects a document with the int `group_id` 7 and the long `chat_id` 99, and the parser files it under chat 99 |
| Migrate.RunGroupAsWrittenMisfilesChat | src/bin/migrate.rs:157-250 | with the filter as written, that document makes group 7's run write a record of chat 99 |
| Migrate.ParsedFrom | src/bin/migrate.rs:191-197 | every parsed record comes from some cursor result |
| Migrate.RunGroupBelowWatermark | src/bin/migrate.rs:157-185 | when the cursor returns only documents the corrected filter selects, a group's writes only carry records of that group's chat, older than what the index already holds for it |
| Migrate.ParsedKeepsOrder | src/bin/migrate.rs:180-183 | records keep the cursor's ascending message-id order |
| Migrate.ThreeRecordsTwoBatches | src/bin/migrate.rs:199-250 | with batch size 2, three records go out as [a, b] then [c] |
| Migrate.DryRunPredictsCleanRun | src/bin/migrate.rs:200-216 | a dry run cuts the same batches as a real run, sends nothing, and predicts the counts of a run where every write is accepted |
| Migrate.RunGroups | src/bin/migrate.rs:151-257 | groups run in order; a failed count or cursor query aborts the run |
| Migrate.Migration | src/bin/migrate.rs:131-256 | a failed watermark query aborts; no groups means nothing to do; otherwise the run succeeds exactly when every group does, the report of each group is its group run, in order, and the totals are the sums |
| Migrate.TotalsAppend | src/bin/migrate.rs:255-256 | the totals add up over consecutive runs of groups |
| Indexer.QueueCapacity | src/es/indexer.rs:21 | for a positive batch size the queue holds exactly four batches |
| Indexer.Index | src/es/indexer.rs:34-38 | the caller never sees a failure: a closed queue drops the message with a warning, a full one waits, otherwise the message joins the queue |
| Indexer.FreshQueueAccepts | src/es/indexer.rs:21 | a new queue accepts its first messages at once |
| Indexer.ChatItems | src/es/indexer.rs:89-102 | each buffered message is keyed by its own chat and message ids |
| Indexer.FlushBuffer | src/es/indexer.rs:83-149 | the buffer is drained whatever happens; an empty buffer sends nothing; otherwise the request pairs an id action with each document, in order |
| Indexer.FlushLogAgreesWithAccepted | src/es/indexer.rs:108-148 | the indexer logs success exactly when the migration would count the write, and the items it logs as failed are those not counted |
| Indexer.FlushNow | src/es/indexer.rs:89 | a flush moves the buffer behind the batches already flushed |
| Indexer.IdleTick | src/es/indexer.rs:74-78 | a tick on an empty buffer changes nothing |
| Indexer.StepKeepsBetween | src/es/indexer.rs:56-78 | each event keeps the buffer short and the batches non-empty and bounded, appends what it received, and only `Closed` stops the loop. A received message flushes the buffer exactly when it reaches the batch size. A tick or the close flushes it exactly when it is non-empty, as the next batch |
| Indexer.Run | src/es/indexer.rs:41-81 | the flushed batches followed by the buffer are the messages received before close, in order; the buffer stays below the batch size; batches are non-empty and at most a batch |
| Indexer.ClosedFlushesAll | src/es/indexer.rs:64-71 | once the queue closes, every message received was flushed exactly once, in order |
| Indexer.AfterCloseIgnored | src/es/indexer.rs:70 | events after the close change nothing |
| Search.BuildQuery | src/es/search.rs:83-152 | the first filter is the chat term; one filter per present option; `must` is one clause, a keyword match exactly when the keyword is non-empty; a range exactly when a date bound is given |
| Search.BuildQueryMeaning | src/es/search.rs:86-128 | the query admits a message exactly when it is in the chat and meets every given filter and the keyword |
| Search.DefaultParamsQuery | src/es/search.rs:24-37 | default parameters search chat 0 unfiltered, from page 0, five per page |
| Search.PagesTile | src/es/search.rs:62 | hit n lands on page `page` exactly when `page == n / page_size` |
| Search.TotalPages | src/es/search.rs:164-168 | no hits give no pages; otherwise the smallest page count whose pages cover the hits |
| Search.PageInRange | src/es/search.rs:62-68 | a page exists exactly when its offset is below the total |
| Search.FirstFragment | src/es/search.rs:186-190 | the highlight is the first fragment when it is a string |
| Search.ParseHits | src/es/search.rs:170-199 | no more messages than hits; an unreadable first hit is dropped and the rest parsed, and hits that are all unreadable give none; hits that all read give one message each, pointwise, with its first highlight |
| Search.ParseHitsAppend | src/es/search.rs:170-199 | hits are parsed one at a time, in order |
| Search.StoredHitsParse | src/es/search.rs:176-184 | hits whose sources are stored messages parse back to those messages, in order |
| Search.ParseResponse | src/es/search.rs:154-207 | the total, the page echoed, the page count from total and page size, and the parsed hits |
| Search.Search | src/es/search.rs:60-81 | the request carries the built query, starts at `page * page_size` and asks for `page_size` hits; the result is Ok exactly for a 2xx reply with a JSON body, and then echoes the page and parses the total and hits |
| Callback.SplitOnce | src/bot/callback.rs:206 | `splitn(2, ' ')` cuts at the first space, or leaves the query whole when there is none |
| Callback.ParseSearchQuery | src/bot/callback.rs:205-218 | a named user never keeps a leading '@'; no user is named exactly when the query has no space or neither part starts with '@', and then the whole query is the keyword |
| Callback.UserFirstRoundTrip | src/bot/callback.rs:207-210 | "@…@user rest" gives keyword "rest" and user "user" |
| Callback.UserSecondRoundTrip | src/bot/callback.rs:211-214 | "kw @…@user" gives keyword "kw" and user "user" |
| Callback.HtmlEscapeIsEscapeEach | src/bot/callback.rs:262-266 | the three replace passes escape each character on its own |
| Callback.Replace | src/bot/callback.rs:263-265 | `str::replace` of a character leaves text without it unchanged, removes it when the replacement lacks it, and adds only characters of the replacement |
| Callback.HtmlEscapeNoTags | src/bot/callback.rs:262-266 | escaped text has no '<' or '>' |
| Callback.HtmlEscapePlain | src/bot/callback.rs:262-266 | text without '&', '<' or '>' is unchanged |
| Callback.EscapeRoundTrip | src/bot/callback.rs:262-266 | escaping loses nothing: reading the entities back gives the original text |
| Callback.ChannelId | src/bot/callback.rs:271-276 | the channel id is defined for every i64, `i64::MIN` included; it is the chat id's magnitude when that is at most 10^12, and the magnitude less 10^12 above it |
| Callback.BasicGroupChannel | src/bot/callback.rs:271-276 | a chat id of magnitude at most 10^12, either sign, links to its magnitude |
| Callback.SupergroupChannel | src/bot/callback.rs:271-276 | the chat id `-(10^12 + k)` links to channel k |
| Callback.LinkRoundTrip | src/bot/callback.rs:268-278 | a link names exactly the chat's channel and the message |
| Callback.IdsRoundTrip | src/bot/callback.rs:277 | the `channel/message` tail of a link reads back as the two ids |
| Callback.SplitJoin | src/bot/callback.rs:96 | joining the pieces back with ':' gives the callback data |
| Callback.Split | src/bot/callback.rs:96 | `split(':')` yields at least one piece and no piece holds ':' |
| Callback.JoinSplit | src/bot/callback.rs:96 | pieces without ':' are recovered from the data the keyboard writes |
| Callback.DateFrom | src/bot/callback.rs:161-179 | 7d, 30d and 90d set the lower bound that many days before now; anything else clears it |
| Callback.ToggleType | src/bot/callback.rs:130-135 | pressing the current kind clears the filter; any other kind sets it |
| Callback.HandleCallback | src/bot/callback.rs:83-199 | no data or no message does nothing; otherwise only the session the data names changes, and only for a `p`, `ft` or `fd` callback of at least three parts |
| Callback.ToggleTwice | src/bot/callback.rs:128-135 | pressing a kind button twice, from no kind filter or that kind, restores the filter and leaves page 0 |
| Callback.DateRow | src/bot/callback.rs:306-311 | four date buttons, for 7d, 30d, 90d and all |
| Callback.TypeRow | src/bot/callback.rs:314-319 | four kind buttons, for text, photo, video and document |
| Callback.TypeFiltersAreTypeNames | src/bot/callback.rs:314-319 | the kind buttons filter on the names messages are stored under |
| Callback.Keyboard | src/bot/callback.rs:280-322 | the nav row shows exactly when page > 0 or there are several pages; prev exactly when page > 0; next exactly when page + 1 < total pages; the date and kind rows always follow |
| Callback.PageButtonsMove | src/bot/callback.rs:98-106 | pressing a page button sets the session's page to the page it names |
| Callback.DateButtonsFilter | src/bot/callback.rs:152-180 | a date button sets only the lower bound, clears the upper one, and returns to page 0 |
| Callback.SnippetAsWrittenLeaksTags | src/bot/callback.rs:244-246 | a long text of '<' reaches the HTML listing unescaped |
| Callback.Snippet | src/bot/callback.rs:240-250 | the highlight when there is one; otherwise text without '<' or '>' that reads back to short texts |
| Callback.EntryNumbersAsWrittenCollide | src/bot/callback.rs:233 | with ten hits per page, page 2's first entry and page 1's sixth are both numbered 6 |
| Callback.EntryNumber | src/bot/callback.rs:233 | the entry number is the hit's rank among all hits |
| Callback.EntryNumbersDistinct | src/bot/callback.rs:233 | entries at different pages or positions get different numbers |
| Callback.FormatResultsAsWritten | src/bot/callback.rs:220-260 | the fixed "not found" text exactly when there are no hits; otherwise the header followed by one entry per hit, in order, each with the number `page * 5 + i + 1` and the unescaped cut snippet |
| Callback.EntryTextsAsWritten | src/bot/callback.rs:232-257 | as written, hit i's entry carries the number `page * 5 + i + 1`, its escaped display name, its formatted date, the as-written snippet and its link |
| Callback.EntriesAsWrittenInOrder | src/bot/callback.rs:232-257 | the as-written listing loop writes the entries of the hits in order, one each |
| Callback.FormatResults | src/bot/callback.rs:220-260 | the fixed "not found" text exactly when there are no hits; otherwise the header followed by one entry per hit, in order, numbered by rank and with the escaped snippet |
| Callback.EntryTexts | src/bot/callback.rs:232-257 | hit i's entry carries its rank among all hits, its escaped display name, its formatted date, the escaped snippet and its link |
| Callback.EntriesInOrder | src/bot/callback.rs:232-257 | the listing loop writes the entries of the hits in order, one each |
| UserCache.UpdateAsWritten | src/models/user_cache.rs:27-50 | the user's entry in the id map becomes the new display name and username and every other entry is untouched; the new name maps to the user; the user's old name, when it differs from the new one, is removed whoever holds it; every other name keeps its mapping; no other name appears |
| UserCache.UpdateAgreesWithAsWritten | src/models/user_cache.rs:27-50 | the corrected update differs from the program's only when the dropped name has been taken by another user |
| UserCache.UpdateAsWrittenForgetsOldName | src/models/user_cache.rs:29-37 | a user who changes or drops their name takes the old name out of the cache |
| UserCache.UpdateAsWrittenDropsTakenName | src/models/user_cache.rs:29-37 | the old name is removed even after another user took it |
| UserCache.UpdateKeepsTakenName | src/models/user_cache.rs:29-37 | the guarded removal leaves the name with the user who took it |
| UserCache.StaleOwnKey | src/models/user_cache.rs:29-37 | the removed name still points to the updating user |
| UserCache.Update | src/models/user_cache.rs:27-50 | the corrected update: the user's entry in the id map becomes the new display name and username and every other entry is untouched; other users' names are untouched unless the new name takes one over; the new name resolves to the user; no other name appears |
| UserCache.Resolve | src/models/user_cache.rs:53-56 | a name resolves exactly when its trimmed, lower-cased form is filed, to the id filed under it |
| UserCache.DisplayName | src/models/user_cache.rs:58-63 | a display name exists exactly for a user seen |
| UserCache.ResolveAfterUpdate | src/models/user_cache.rs:39-41 | after the program's update, and after the corrected one, the user's name resolves to them, in any ASCII case and with leading '@'s |
| UserCache.ResolveIgnoresAt | src/models/user_cache.rs:54 | asking with a leading '@' gives the same answer |
| UserCache.RenameForgetsOldName | src/models/user_cache.rs:29-37 | after a rename the old name no longer resolves to the user |
| UserCache.NoUsernameNoMapping | src/models/user_cache.rs:39-41 | an update without a username adds no name, in the program's update and in the corrected one |
| UserCache.UpdateIdempotent | src/models/user_cache.rs:27-50 | the same update twice equals it once, in the program's update and in the corrected one |
| UserCache.UpdateKeepsSound | src/models/user_cache.rs:27-50 | both the program's update and the corrected one keep every filed name pointing to a user whose last username files under it |
| UserCache.SoundResolve | src/models/user_cache.rs:53-56 | in a sound cache a resolved name belongs to the user it resolves to |
| Recorder.AsI64 | src/bot/message_recorder.rs:22 | `u64 as i64` keeps ids below 2^63 and wraps larger ones to negative values |
| Recorder.ExtractText | src/bot/message_recorder.rs:44-49 | the text, else the caption, else "" |
| Recorder.ClassifyIsFirstMatch | src/bot/message_recorder.rs:51-69 | the kind is the first of text, photo, video, document, sticker, voice, animation present, else other |
| Recorder.TextWins | src/bot/message_recorder.rs:52-53 | a message with text is a text message whatever it carries |
| Recorder.SenderName | src/bot/message_recorder.rs:24-32 | "first last", "first" without a last name, "" without a sender |
| Recorder.RecordMessage | src/bot/message_recorder.rs:7-42 | only group and supergroup messages with text or caption are recorded; ids, date, title and reply are copied; the sender's id is present exactly when there is a sender, and the username is the sender's; the display name is the sender's name; the kind is the classification |
| Recorder.RecordedTextSource | src/bot/message_recorder.rs:13-16 | a recorded text message carries its text, any other recorded message its caption |
| Recorder.RecordedMessageStoredIntact | src/bot/message_recorder.rs:19-37 | the index document of a recorded message reads back with its ids, date, text and kind |

## Left out

- Network and database I/O: the Elasticsearch client, the Mongo count and cursor, and Telegram sends and
  edits. Their outcomes are parameters (`BulkReply`, `AggReply`, `GroupSource`, `SearchReply`), or the
  oracle `Store` from batch to bulk reply.
- The tokio `select!`, the mpsc channel and the interval timer. The flush loop is a sequential fold over
  a finite event list, so real concurrency and backpressure are not modelled.
- `session_id`: it hashes the wall clock with `DefaultHasher`. `handle_search` is left out as well,
  because it fills a `username` field that this revision's `SearchParams` lacks. Sessions arrive in
  `HandleCallback` as a map.
- `Utc::now()` is the `now` parameter of `HandleCallback`. Chrono's date formatting is the `formatDate`
  parameter of `FormatResults`.
- Floating point: the aggregation minimum, read as `f64` and cast, is an optional integer in `Bucket`.
  The hit score is not read.
- Serde internals and the serialization-failure branch of `flush_buffer`. Documents are lists of
  key/value pairs.
- Configuration loading, the index mapping, the error enum, command parsing, bootstrap and dispatcher
  wiring: these are glue with no behaviour to state.
- UserCache.Key: Unicode `to_lowercase` is modelled as ASCII lower-casing. It is idempotent like the
  original, but it folds fewer characters.
- Search.Search: `page * page_size` is unbounded, with no usize overflow. It requires a positive page size
  whenever the reply reports hits, because `div_ceil` by zero panics in the source.
- Indexer.QueueCapacity: `batch_size * 4` is unbounded, with no usize overflow. It requires a batch size of at
  least 1, because `mpsc::channel` panics on a capacity of 0. Indexer.Run still accepts 0 and flushes every
  message on its own, a state the running indexer never reaches.
- Bulk.Accepted: it requires the reply to report no more failed items than were sent. Otherwise the
  source's usize subtraction panics in a debug build and wraps around in a release build.
- Migrate.RunGroup: each group's cursor is taken as given. Selection and ascending order by the Mongo
  query are preconditions of Migrate.RunGroupBelowWatermark and Migrate.ParsedKeepsOrder, not computed
  here.
- Migrate.Selected: an array under `msg_ctx` or `message_id` is `OtherValue`, which the filter never
  selects. Mongo matches an array when one of its elements matches; such documents are not modelled.
  Decimal128 and other numeric types are represented by `Double` alone.
- Migrate.Migration: the bulk store is a function of the batch alone, so two writes of the same batch get
  the same reply. Replies that change over time are not modelled.
- Callback.HandleCallback: the search and the message edit that follow a session change are I/O. The
  effect names the session to refresh, and `Search.Search`, `FormatResults` and `Keyboard` model what
  is then sent.
- Indexer.Index: a full queue is reported as `Waiting`. The async wait that follows is not modelled.

Behaviours of the code that the model keeps:

- A failed count or find query aborts the whole migration (`?`); the group is not skipped.
- Per-item bulk errors are not added to the group's errors: only the accepted count is added.
- Only legacy documents with `msg_type == 1` are selected.
- Migrated documents always get the kind "text".

## Findings

| source | as written | input that shows it | evidently intended | confidence | as-written member | corrected member |
|---|---|---|---|---|---|---|
| src/bot/callback.rs:244-246 | a text longer than 80 characters is cut to 80 and inserted into the HTML listing without escaping | a message of 81 '<' characters, with no highlight | the cut text is escaped like a short one | high; not executed | Callback.SnippetAsWrittenLeaksTags | Callback.Snippet |
| src/bot/callback.rs:233 | the entry number is `page * 5 + i + 1`, whatever page size the search used | page size 10: page 1, entry 0 and page 0, entry 5 are both numbered 6 | `page * page_size + i + 1`, the rank among all hits | medium; not executed | Callback.EntryNumbersAsWrittenCollide | Callback.EntryNumbersDistinct |
| src/bin/migrate.rs:157-169 | `msg_ctx.message_id` is compared with `$lt` by numeric value, but the parser reads it only as an i64 or i32 and otherwise falls back to the top-level `message_id` | `group_id` 7, `msg_ctx.message_id` the double 999.0, top-level `message_id` 5000, `msg_type` 1, watermark 1000: message 5000 is written | the filter selects only documents whose compared id is the id the parser reads (`$type` int or long) | low; not executed | Migrate.RunGroupAsWrittenEscapesWatermark | Migrate.RunGroupBelowWatermark |
| src/bin/migrate.rs:423-426 | the filter compares `group_id` with the group by value, but the parser reads a long `chat_id` before an int `group_id` | `group_id` the int 7, `chat_id` the long 99, `msg_ctx.message_id` 999, `msg_type` 1, watermark 1000: group 7's run writes document `99_999` | the record written belongs to the group whose watermark was checked (`group_id` a long, or an int with no long `chat_id`) | low; not executed | Migrate.RunGroupAsWrittenMisfilesChat | Migrate.RunGroupBelowWatermark |
| src/models/user_cache.rs:33-34 | on a rename, the old lower-cased name is removed from `name_to_id` even when it now points to another user | user 1 posts as "alice", user 2 posts as "alice", user 1 posts as "bob": "alice" no longer resolves | remove the old name only while it still maps to this user | medium; not executed | UserCache.UpdateAsWrittenDropsTakenName | UserCache.UpdateKeepsTakenName |

=== FILE: bulk.dfy ===
/**
  What the migration tool and the live indexer share when they write to the
  search index: the deterministic document id "{chat_id}_{message_id}", the
  two-lines-per-message bulk request body, and the reading of the bulk reply.
 */
module Bulk {
  import opened Common
  import opened Decimal
  import opened Message

  /** `format!("{}_{}", chat_id, message_id)`. */
  function DocId(chatId: int, messageId: int): string
  {
    IntToString(chatId) + "_" + IntToString(messageId)
  }

  /** Index of the first `c` in `s`, or |s| when there is none. */
  function IndexOf(s: string, c: char): (k: nat)
    ensures k <= |s|
    ensures k < |s| ==> s[k] == c
    ensures forall j :: 0 <= j < k ==> s[j] != c
  {
    if |s| == 0 then 0 else if s[0] == c then 0 else 1 + IndexOf(s[1..], c)
  }

  /** Splits a document id at its first '_' and reads both halves back. */
  function ParseDocId(id: string): Option<(int, int)>
  {
    var k := IndexOf(id, '_');
    if k == |id| then None
    else match (ParseInt(id[..k]), ParseInt(id[k + 1..]))
      case (Some(c), Some(m)) => Some((c, m))
      case _ => None
  }

  lemma DocIdRoundTrip(chatId: int, messageId: int)
    ensures ParseDocId(DocId(chatId, messageId)) == Some((chatId, messageId))
  {
    var c, m := IntToString(chatId), IntToString(messageId);
    var id := DocId(chatId, messageId);
    assert id[|c|] == '_';
    assert forall j :: 0 <= j < |c| ==> id[j] == c[j];
    assert IndexOf(id, '_') == |c|;
    assert id[..|c|] == c;
    assert id[|c| + 1..] == m;
    IntToStringRoundTrip(chatId);
    IntToStringRoundTrip(messageId);
  }

  /** Two messages share a document id only if they are the same message of the same chat. */
  lemma DocIdInjective(c1: int, m1: int, c2: int, m2: int)
    ensures DocId(c1, m1) == DocId(c2, m2) <==> c1 == c2 && m1 == m2
  {
    DocIdRoundTrip(c1, m1);
    DocIdRoundTrip(c2, m2);
  }

  /** One line of an Elasticsearch bulk request. */
  datatype BulkLine = Action(id: string) | Source(doc: Doc)

  /** A message ready to be written: the two halves of its id and its document. */
  datatype BulkItem = BulkItem(chatId: int, messageId: int, doc: Doc)

  /** For each message, an `index` action naming its id, then its document. */
  function Body(items: seq<BulkItem>): (lines: seq<BulkLine>)
    ensures |lines| == 2 * |items|
    ensures forall i :: 0 <= i < |items| ==>
      lines[2 * i] == Action(DocId(items[i].chatId, items[i].messageId)) && lines[2 * i + 1] == Source(items[i].doc)
  {
    if |items| == 0 then []
    else [Action(DocId(items[0].chatId, items[0].messageId)), Source(items[0].doc)] + Body(items[1..])
  }

  /** The body of two batches sent together is the two bodies one after the other. */
  lemma {:induction false} BodyAppend(a: seq<BulkItem>, b: seq<BulkItem>)
    ensures Body(a + b) == Body(a) + Body(b)
  {
    if |a| == 0 {
      assert a + b == b;
    } else {
      assert (a + b)[1..] == a[1..] + b;
      BodyAppend(a[1..], b);
    }
  }

  /**
    The parts of a bulk reply body the code reads: the top-level `errors`
    flag when it is a boolean, and for each entry of `items` (when it is an
    array) whether its `index.error` is an object.
   */
  datatype BulkReplyBody = BulkReplyBody(errors: Option<bool>, items: Option<seq<bool>>)

  /** Outcome of sending a bulk request. `body` is None when it is not JSON. */
  datatype BulkReply = SendFailed | Replied(status: int, body: Option<BulkReplyBody>)

  /** Items the reply reports as failed; only counted when the `errors` flag is set. */
  function FailedItems(body: BulkReplyBody): nat
  {
    if body.errors.GetOr(false) then CountTrue(body.items.GetOr([])) else 0
  }

  /** The store reports no more failures than the request had messages. */
  predicate ReplyFits(reply: BulkReply, n: nat)
  {
    reply.Replied? && reply.body.Some? ==> FailedItems(reply.body.value) <= n
  }

  /**
    `bulk_index`'s reading of the reply to a request of `n` messages: an
    error when the request or the reply body failed or the status is not
    2xx, otherwise the number of messages not reported as failed.
   */
  function Accepted(n: nat, reply: BulkReply): (r: Result<nat>)
    requires ReplyFits(reply, n)
    ensures r.Ok? <==> reply.Replied? && IsSuccess(reply.status) && reply.body.Some?
    ensures r.Ok? ==> r.value <= n
    ensures r.Ok? ==> r.value + FailedItems(reply.body.value) == n
    ensures r.Ok? && !reply.body.value.errors.GetOr(false) ==> r.value == n
  {
    match reply
    case SendFailed => Err("bulk request failed")
    case Replied(status, body) =>
      if !IsSuccess(status) then Err("Bulk index failed")
      else if body.None? then Err("unreadable bulk response")
      else if body.value.errors.GetOr(false) then Ok(n - CountTrue(body.value.items.GetOr([])))
      else Ok(n)
  }
}

=== FILE: callback.dfy ===
/**
  The search UI: splitting a `/search` query into keyword and `@username`,
  HTML escaping, the t.me link of a result, the result listing, the inline
  keyboard under it, and how the keyboard's callback strings change the
  stored search sessions.
 */
module Callback {
  import opened Common
  import opened Decimal
  import opened Message
  import opened Bulk
  import opened Search

  // ---------------------------------------------------------------------
  // Query splitting
  // ---------------------------------------------------------------------

  /** `splitn(2, ' ')`: the text up to the first space and the rest, or the whole text. */
  function SplitOnce(q: string): (parts: seq<string>)
    ensures 1 <= |parts| <= 2
    ensures |parts| == 1 <==> ' ' !in q
    ensures |parts| == 1 ==> parts[0] == q
    ensures |parts| == 2 ==> q == parts[0] + " " + parts[1] && ' ' !in parts[0]
  {
    var k := IndexOf(q, ' ');
    if k == |q| then [q]
    else
      assert q == q[..k] + " " + q[k + 1..];
      [q[..k], q[k + 1..]]
  }

  /**
    `parse_search_query`: "@user rest" and "keyword @user…" name a user
    (leading '@'s stripped); anything else is all keyword.
   */
  function ParseSearchQuery(q: string): (r: (string, Option<string>))
    ensures r.1.Some? ==> !StartsWithAt(r.1.value)
    ensures ' ' !in q ==> r == (q, None)
    ensures r.1.None? <==> ' ' !in q || (!StartsWithAt(SplitOnce(q)[0]) && !StartsWithAt(SplitOnce(q)[1]))
    ensures r.1.None? ==> r.0 == q
  {
    var parts := SplitOnce(q);
    if |parts| == 2 && StartsWithAt(parts[0]) then (parts[1], Some(TrimAt(parts[0])))
    else if |parts| == 2 && StartsWithAt(parts[1]) then (parts[0], Some(TrimAt(parts[1])))
    else (q, None)
  }

  /** A text with a space splits at its first space. */
  lemma SplitOnceAt(a: string, b: string)
    requires ' ' !in a
    ensures SplitOnce(a + " " + b) == [a, b]
  {
    var q := a + " " + b;
    assert q[|a|] == ' ';
    assert forall j :: 0 <= j < |a| ==> q[j] == a[j];
    assert IndexOf(q, ' ') == |a|;
    assert q[..|a|] == a;
    assert q[|a| + 1..] == b;
  }

  /** `n` '@' characters. */
  function Ats(n: nat): (s: string)
    ensures |s| == n && forall i :: 0 <= i < n ==> s[i] == '@'
  {
    if n == 0 then "" else "@" + Ats(n - 1)
  }

  /** A user named before the keyword is read back, whatever the keyword. */
  lemma UserFirstRoundTrip(ats: nat, user: string, keyword: string)
    requires ' ' !in user && !StartsWithAt(user) && ats >= 1
    ensures ParseSearchQuery(Ats(ats) + user + " " + keyword) == (keyword, Some(user))
  {
    var head := Ats(ats) + user;
    assert ' ' !in head by {
      assert forall j :: ats <= j < |head| ==> head[j] == user[j - ats];
    }
    SplitOnceAt(head, keyword);
    assert StartsWithAt(head);
    TrimAtPrefix(ats, user);
  }

  /** A user named after a one-word keyword is read back, with all leading '@'s stripped. */
  lemma UserSecondRoundTrip(keyword: string, ats: nat, user: string)
    requires ' ' !in keyword && !StartsWithAt(keyword) && !StartsWithAt(user) && ats >= 1
    ensures ParseSearchQuery(keyword + " " + Ats(ats) + user) == (keyword, Some(user))
  {
    var tail := Ats(ats) + user;
    assert keyword + " " + Ats(ats) + user == keyword + " " + tail;
    SplitOnceAt(keyword, tail);
    assert StartsWithAt(tail);
    TrimAtPrefix(ats, user);
  }

  lemma {:induction false} TrimAtPrefix(ats: nat, user: string)
    requires !StartsWithAt(user)
    ensures TrimAt(Ats(ats) + user) == user
  {
    var s := Ats(ats) + user;
    if ats > 0 {
      assert s[0] == '@';
      assert s[1..] == Ats(ats - 1) + user;
      assert TrimAt(s) == TrimAt(s[1..]);
      TrimAtPrefix(ats - 1, user);
    } else {
      assert s == user;
    }
  }

  // ---------------------------------------------------------------------
  // HTML escaping
  // ---------------------------------------------------------------------

  /** `str::replace` with a one-character pattern. */
  function Replace(s: string, c: char, rep: string): (r: string)
    ensures c !in s ==> r == s
    ensures c !in rep ==> c !in r
    ensures forall x :: x in r && x != c && x !in rep ==> x in s
  {
    if |s| == 0 then ""
    else (if s[0] == c then rep else [s[0]]) + Replace(s[1..], c, rep)
  }

  /** `html_escape`: `&` first, then `<`, then `>`, each replaced in a separate pass. */
  function HtmlEscape(s: string): string
  {
    Replace(Replace(Replace(s, '&', "&amp;"), '<', "&lt;"), '>', "&gt;")
  }

  /** The escape of one character. */
  function EscapeChar(c: char): string
  {
    if c == '&' then "&amp;" else if c == '<' then "&lt;" else if c == '>' then "&gt;" else [c]
  }

  /** Escaping as a single left-to-right pass. */
  function EscapeEach(s: string): string
  {
    if |s| == 0 then "" else EscapeChar(s[0]) + EscapeEach(s[1..])
  }

  lemma {:induction false} ReplaceAppend(a: string, b: string, c: char, rep: string)
    ensures Replace(a + b, c, rep) == Replace(a, c, rep) + Replace(b, c, rep)
  {
    if |a| == 0 {
      assert a + b == b;
    } else {
      assert (a + b)[1..] == a[1..] + b;
      ReplaceAppend(a[1..], b, c, rep);
    }
  }

  /** The three passes do what one pass of per-character escapes does. */
  lemma HtmlEscapeAppend(a: string, b: string)
    ensures HtmlEscape(a + b) == HtmlEscape(a) + HtmlEscape(b)
  {
    ReplaceAppend(a, b, '&', "&amp;");
    var a1, b1 := Replace(a, '&', "&amp;"), Replace(b, '&', "&amp;");
    ReplaceAppend(a1, b1, '<', "&lt;");
    ReplaceAppend(Replace(a1, '<', "&lt;"), Replace(b1, '<', "&lt;"), '>', "&gt;");
  }

  lemma EscapeOne(c: char)
    ensures HtmlEscape([c]) == EscapeChar(c)
  {
    assert [c][1..] == [];
    var r1 := Replace([c], '&', "&amp;");
    assert r1 == if c == '&' then "&amp;" else [c];
    var r2 := Replace(r1, '<', "&lt;");
    assert r2 == if c == '&' then "&amp;" else if c == '<' then "&lt;" else [c];
  }

  lemma {:induction false} HtmlEscapeIsEscapeEach(s: string)
    ensures HtmlEscape(s) == EscapeEach(s)
  {
    if |s| > 0 {
      assert s == [s[0]] + s[1..];
      HtmlEscapeAppend([s[0]], s[1..]);
      EscapeOne(s[0]);
      HtmlEscapeIsEscapeEach(s[1..]);
    }
  }

  /** Escaped text holds no angle brackets, so it cannot open or close a tag. */
  lemma HtmlEscapeNoTags(s: string)
    ensures '<' !in HtmlEscape(s) && '>' !in HtmlEscape(s)
  {
    var a := Replace(s, '&', "&amp;");
    var l := Replace(a, '<', "&lt;");
    assert '<' !in l;
    assert forall x :: x in Replace(l, '>', "&gt;") && x != '>' && x !in "&gt;" ==> x in l;
  }

  /** Text without `&`, `<` or `>` is left as it is. */
  lemma HtmlEscapePlain(s: string)
    requires '&' !in s && '<' !in s && '>' !in s
    ensures HtmlEscape(s) == s
  {
  }

  /** Reading entities back: `&amp;`, `&lt;` and `&gt;` become their characters. */
  function Unescape(s: string): string
  {
    if |s| == 0 then ""
    else if s[0] != '&' then [s[0]] + Unescape(s[1..])
    else if |s| >= 5 && s[..5] == "&amp;" then "&" + Unescape(s[5..])
    else if |s| >= 4 && s[..4] == "&lt;" then "<" + Unescape(s[4..])
    else if |s| >= 4 && s[..4] == "&gt;" then ">" + Unescape(s[4..])
    else [s[0]] + Unescape(s[1..])
  }

  /** Reading back one escaped character in front of any text. */
  lemma UnescapeCons(c: char, rest: string)
    ensures Unescape(EscapeChar(c) + rest) == [c] + Unescape(rest)
  {
    var e := EscapeChar(c) + rest;
    if c == '&' {
      assert e[..5] == "&amp;" && e[5..] == rest;
    } else if c == '<' {
      assert e[..4] == "&lt;" && e[4..] == rest;
      assert e[1] == 'l';
    } else if c == '>' {
      assert e[..4] == "&gt;" && e[4..] == rest;
      assert e[1] == 'g';
    } else {
      assert e[0] == c && e[1..] == rest;
    }
  }

  /** Escaping loses nothing: the original text is read back. */
  lemma {:induction false} EscapeRoundTrip(s: string)
    ensures Unescape(EscapeEach(s)) == s
  {
    if |s| > 0 {
      UnescapeCons(s[0], EscapeEach(s[1..]));
      EscapeRoundTrip(s[1..]);
      assert s == [s[0]] + s[1..];
    }
  }

  // ---------------------------------------------------------------------
  // Message links
  // ---------------------------------------------------------------------

  /** The offset in a supergroup's chat id: `-100` followed by the channel id. */
  const CHANNEL_OFFSET: nat := 1_000_000_000_000

  /** `unsigned_abs`, then the offset removed when the id is larger than it. */
  function ChannelId(chatId: int): (c: nat)
    ensures IsI64(chatId) ==> c < USIZE_LIMIT
    ensures c <= if chatId < 0 then -chatId else chatId
    ensures var abs := if chatId < 0 then -chatId else chatId;
      (abs <= CHANNEL_OFFSET ==> c == abs) && (abs > CHANNEL_OFFSET ==> c + CHANNEL_OFFSET == abs)
  {
    var abs: nat := if chatId < 0 then -chatId else chatId;
    if abs > CHANNEL_OFFSET then abs - CHANNEL_OFFSET else abs
  }

  /** A supergroup id `-(10^12 + k)` links to channel `k`, even at `i64::MIN`. */
  lemma SupergroupChannel(k: nat)
    requires k > 0
    ensures ChannelId(-(CHANNEL_OFFSET + k)) == k
    ensures IsI64(-(CHANNEL_OFFSET + k)) ==> k < USIZE_LIMIT
  {
  }

  /** A basic group id, at most 10^12 in magnitude, links to its own magnitude. */
  lemma BasicGroupChannel(k: int)
    requires 0 <= k <= CHANNEL_OFFSET
    ensures ChannelId(k) == k && ChannelId(-k) == k
  {
  }

  const LinkPrefix: string := "https://t.me/c/"

  /** `format_message_link`. */
  function FormatMessageLink(chatId: int, messageId: int): string
  {
    LinkPrefix + NatToString(ChannelId(chatId)) + "/" + IntToString(messageId)
  }

  /** Reads "{channel}/{message}" back into the two ids. */
  function ParseIds(rest: string): Option<(nat, int)>
  {
    var k := IndexOf(rest, '/');
    if k == |rest| || k == 0 || !AllDigits(rest[..k]) then None
    else match ParseInt(rest[k + 1..])
      case Some(m) => Some((DigitsValue(rest[..k]), m))
      case None => None
  }

  lemma IdsRoundTrip(channel: nat, messageId: int)
    ensures ParseIds(NatToString(channel) + "/" + IntToString(messageId)) == Some((channel, messageId))
  {
    var c, m := NatToString(channel), IntToString(messageId);
    var rest := c + "/" + m;
    assert rest[|c|] == '/';
    assert forall j :: 0 <= j < |c| ==> rest[j] == c[j] && IsDigit(c[j]);
    assert IndexOf(rest, '/') == |c|;
    assert rest[..|c|] == c && rest[|c| + 1..] == m;
    NatToStringRoundTrip(channel);
    IntToStringRoundTrip(messageId);
  }

  /** Reads a message link back into its channel and message ids. */
  function ParseLink(link: string): Option<(nat, int)>
  {
    if |link| < |LinkPrefix| || link[..|LinkPrefix|] != LinkPrefix then None
    else ParseIds(link[|LinkPrefix|..])
  }

  lemma ParseLinkOf(ids: string)
    ensures ParseLink(LinkPrefix + ids) == ParseIds(ids)
  {
    var link := LinkPrefix + ids;
    assert link[..|LinkPrefix|] == LinkPrefix;
    assert link[|LinkPrefix|..] == ids;
  }

  /** A link names exactly the channel of the chat and the message. */
  lemma LinkRoundTrip(chatId: int, messageId: int)
    ensures ParseLink(FormatMessageLink(chatId, messageId)) == Some((ChannelId(chatId), messageId))
  {
    var ids := NatToString(ChannelId(chatId)) + "/" + IntToString(messageId);
    assert FormatMessageLink(chatId, messageId) == LinkPrefix + ids;
    ParseLinkOf(ids);
    IdsRoundTrip(ChannelId(chatId), messageId);
  }

  // ---------------------------------------------------------------------
  // Callback strings
  // ---------------------------------------------------------------------

  /** `split(':')`: the pieces between colons; there is always at least one. */
  function Split(s: string): (parts: seq<string>)
    ensures |parts| >= 1
    ensures forall i :: 0 <= i < |parts| ==> ':' !in parts[i]
    decreases |s|
  {
    var k := IndexOf(s, ':');
    if k == |s| then [s] else [s[..k]] + Split(s[k + 1..])
  }

  /** The pieces put back together with colons. */
  function Join(parts: seq<string>): string
    requires |parts| >= 1
  {
    if |parts| == 1 then parts[0] else parts[0] + ":" + Join(parts[1..])
  }

  lemma {:induction false} SplitJoin(s: string)
    ensures Join(Split(s)) == s
    decreases |s|
  {
    var k := IndexOf(s, ':');
    if k < |s| {
      SplitJoin(s[k + 1..]);
      assert s == s[..k] + ":" + s[k + 1..];
    }
  }

  /** Text without a colon is a single piece. */
  lemma SplitNone(s: string)
    requires ':' !in s
    ensures Split(s) == [s]
  {
    assert IndexOf(s, ':') == |s|;
  }

  /** A colon-free piece followed by a colon splits off first. */
  lemma SplitCons(p: string, rest: string)
    requires ':' !in p
    ensures Split(p + ":" + rest) == [p] + Split(rest)
  {
    var s := p + ":" + rest;
    assert s[|p|] == ':';
    assert forall j :: 0 <= j < |p| ==> s[j] == p[j];
    assert IndexOf(s, ':') == |p|;
    assert s[..|p|] == p && s[|p| + 1..] == rest;
  }

  /** Colon-free pieces are recovered from their joined text. */
  lemma {:induction false} JoinSplit(parts: seq<string>)
    requires |parts| >= 1 && forall i :: 0 <= i < |parts| ==> ':' !in parts[i]
    ensures Split(Join(parts)) == parts
  {
    if |parts| == 1 {
      SplitNone(parts[0]);
    } else {
      SplitCons(parts[0], Join(parts[1..]));
      JoinSplit(parts[1..]);
      assert parts == [parts[0]] + parts[1..];
    }
  }

  /** The data of a keyboard button: `{kind}:{argument}:{session}`. */
  function ButtonData(kind: string, arg: string, sid: string): string
  {
    Join([kind, arg, sid])
  }

  // ---------------------------------------------------------------------
  // Sessions
  // ---------------------------------------------------------------------

  type Sessions = map<string, SearchParams>

  /**
    The effect of a callback: the sessions afterwards, and the session (id
    and parameters) to search again and redraw, if any.
   */
  datatype CallbackEffect = CallbackEffect(sessions: Sessions, refresh: Option<(string, SearchParams)>)

  const DAY: int := 86400

  /** The start of the date filter a `fd:` range selects; any other range clears it. */
  function DateFrom(range: string, now: int): (r: Option<int>)
    ensures r.Some? <==> range in {"7d", "30d", "90d"}
    ensures range == "7d" ==> r == Some(now - 7 * DAY)
    ensures range == "30d" ==> r == Some(now - 30 * DAY)
    ensures range == "90d" ==> r == Some(now - 90 * DAY)
  {
    if range == "7d" then Some(now - 7 * DAY)
    else if range == "30d" then Some(now - 30 * DAY)
    else if range == "90d" then Some(now - 90 * DAY)
    else None
  }

  /** `ft:` toggles the kind filter: the same kind clears it, any other sets it. */
  function ToggleType(current: Option<string>, t: string): (r: Option<string>)
    ensures current == Some(t) ==> r == None
    ensures current != Some(t) ==> r == Some(t)
  {
    if current == Some(t) then None else Some(t)
  }

  /** The new parameters of session `sid` for a well-formed callback, if it names a kind of callback. */
  function Updated(kind: string, arg: string, p: SearchParams, now: int): Option<SearchParams>
  {
    if kind == "p" then Some(p.(page := ParseUsize(arg).GetOr(0)))
    else if kind == "ft" then Some(p.(messageType := ToggleType(p.messageType, arg), page := 0))
    else if kind == "fd" then Some(p.(dateFrom := DateFrom(arg, now), dateTo := None, page := 0))
    else None
  }

  /**
    `handle_callback`, its session-store part: without data or a message
    nothing happens; otherwise the data is split at ':' and a `p`, `ft` or
    `fd` callback with at least three parts changes the session it names,
    if that session exists. The search and the redraw that follow are I/O.
   */
  function HandleCallback(data: Option<string>, hasMessage: bool, sessions: Sessions, now: int): (r: CallbackEffect)
    ensures r.sessions.Keys == sessions.Keys
    ensures forall k :: k in sessions && (r.refresh.None? || k != r.refresh.value.0) ==> r.sessions[k] == sessions[k]
    ensures r.refresh.Some? ==> r.refresh.value.0 in sessions && r.sessions[r.refresh.value.0] == r.refresh.value.1
    ensures data.None? || !hasMessage ==> r == CallbackEffect(sessions, None)
    ensures r.refresh.Some? ==>
      var parts := Split(data.value);
      && |parts| >= 3 && parts[2] == r.refresh.value.0
      && Updated(parts[0], parts[1], sessions[parts[2]], now) == Some(r.refresh.value.1)
  {
    if data.None? || !hasMessage then CallbackEffect(sessions, None)
    else
      var parts := Split(data.value);
      if |parts| < 3 || parts[2] !in sessions then CallbackEffect(sessions, None)
      else
        var sid := parts[2];
        match Updated(parts[0], parts[1], sessions[sid], now)
        case None => CallbackEffect(sessions, None)
        case Some(p) => CallbackEffect(sessions[sid := p], Some((sid, p)))
  }

  /** Pressing the same kind button twice, from no kind filter or that kind, restores it. */
  lemma ToggleTwice(sessions: Sessions, sid: string, t: string, now: int)
    requires sid in sessions && ':' !in sid && ':' !in t
    requires sessions[sid].messageType == None || sessions[sid].messageType == Some(t)
    ensures var once := HandleCallback(Some(ButtonData("ft", t, sid)), true, sessions, now).sessions;
            var twice := HandleCallback(Some(ButtonData("ft", t, sid)), true, once, now).sessions;
            twice == sessions[sid := sessions[sid].(page := 0)]
  {
    JoinSplit(["ft", t, sid]);
  }

  // ---------------------------------------------------------------------
  // Keyboard
  // ---------------------------------------------------------------------

  datatype Button = Button(text: string, data: string)

  function PageButton(text: string, page: nat, sid: string): Button
  {
    Button(text, ButtonData("p", NatToString(page), sid))
  }

  const DateRanges: seq<string> := ["7d", "30d", "90d", "all"]
  const TypeFilters: seq<string> := ["text", "photo", "video", "document"]

  function DateRow(sid: string): (row: seq<Button>)
    ensures |row| == 4 && forall i :: 0 <= i < 4 ==> row[i].data == ButtonData("fd", DateRanges[i], sid)
  {
    [Button("7天内", ButtonData("fd", "7d", sid)), Button("30天内", ButtonData("fd", "30d", sid)),
     Button("90天内", ButtonData("fd", "90d", sid)), Button("全部", ButtonData("fd", "all", sid))]
  }

  function TypeRow(sid: string): (row: seq<Button>)
    ensures |row| == 4 && forall i :: 0 <= i < 4 ==> row[i].data == ButtonData("ft", TypeFilters[i], sid)
  {
    [Button("文字", ButtonData("ft", "text", sid)), Button("图片", ButtonData("ft", "photo", sid)),
     Button("视频", ButtonData("ft", "video", sid)), Button("文件", ButtonData("ft", "document", sid))]
  }

  /** The four kind buttons filter on the names messages are stored under. */
  lemma TypeFiltersAreTypeNames()
    ensures TypeFilters == [TypeName(Text), TypeName(Photo), TypeName(Video), TypeName(Document)]
  {
  }

  /**
    `build_results_keyboard`: a navigation row (previous page, position,
    next page) when there is more than one page or this is not the first,
    then the date-range row and the kind row.
   */
  function Keyboard(r: SearchResult, sid: string): (rows: seq<seq<Button>>)
    ensures |rows| == if r.page > 0 || r.totalPages > 1 then 3 else 2
    ensures rows[|rows| - 2] == DateRow(sid) && rows[|rows| - 1] == TypeRow(sid)
    ensures |rows| == 3 ==> |rows[0]| >= 1
    ensures |rows| == 3 && r.page > 0 ==> rows[0][0] == PageButton("⬅ 上一页", r.page - 1, sid)
    ensures |rows| == 3 && r.page == 0 ==> rows[0][0].data == "noop"
    ensures |rows| == 3 && r.page + 1 < r.totalPages ==> rows[0][|rows[0]| - 1] == PageButton("下一页 ➡", r.page + 1, sid)
    ensures |rows| == 3 && r.page + 1 >= r.totalPages ==> rows[0][|rows[0]| - 1].data == "noop"
  {
    var prev := if r.page > 0 then [PageButton("⬅ 上一页", r.page - 1, sid)] else [];
    var next := if r.page + 1 < r.totalPages then [PageButton("下一页 ➡", r.page + 1, sid)] else [];
    var position := Button(NatToString(r.page + 1) + "/" + NatToString(r.totalPages), "noop");
    var nav := prev + [position] + next;
    if |nav| > 1 || r.totalPages > 1 then [nav, DateRow(sid), TypeRow(sid)] else [DateRow(sid), TypeRow(sid)]
  }

  /**
    The page buttons do what they say: pressing "next" (or "previous") on a
    stored session sets its page to the one after (or before) the page shown.
   */
  lemma PageButtonsMove(sessions: Sessions, sid: string, page: nat, now: int)
    requires sid in sessions && ':' !in sid && IsUsize(page)
    ensures HandleCallback(Some(PageButton("", page, sid).data), true, sessions, now).sessions
      == sessions[sid := sessions[sid].(page := page)]
  {
    JoinSplit(["p", NatToString(page), sid]);
    ParseUsizeRoundTrip(page);
  }

  /** The date buttons set the chosen lower bound and no upper bound, and go back to the first page. */
  lemma DateButtonsFilter(sessions: Sessions, sid: string, i: nat, now: int)
    requires sid in sessions && ':' !in sid && i < 4
    ensures var after := HandleCallback(Some(DateRow(sid)[i].data), true, sessions, now).sessions[sid];
      && after == sessions[sid].(dateFrom := after.dateFrom, dateTo := None, page := 0)
      && (i < 3 <==> after.dateFrom.Some?)
      && (i == 0 ==> after.dateFrom == Some(now - 7 * DAY))
  {
    JoinSplit(["fd", DateRanges[i], sid]);
  }

  // ---------------------------------------------------------------------
  // Result listing
  // ---------------------------------------------------------------------

  const NotFoundText: string := "未找到相关消息。"

  /** Texts longer than this are cut in the listing when there is no highlight. */
  const SNIPPET_CHARS: nat := 80

  function Header(r: SearchResult): string
  {
    "共找到 <b>" + NatToString(r.total) + "</b> 条结果（第 " + NatToString(r.page + 1) + "/"
      + NatToString(r.totalPages) + "  页）：\n\n"
  }

  /** One entry of the listing: number, escaped name, date, snippet, link. */
  function EntryText(num: nat, hit: SearchHit, date: string, snippet: string, chatId: int): string
  {
    NatToString(num) + ". <b>" + HtmlEscape(hit.message.displayName) + "</b>  <i>" + date + "</i>\n"
      + snippet + "\n<a href=\"" + FormatMessageLink(chatId, hit.message.messageId) + "\">跳转到消息</a>\n\n"
  }

  /** The snippet as the listing writes it: the truncated text is not escaped. */
  function SnippetAsWritten(hit: SearchHit): string
  {
    if hit.highlight.Some? then hit.highlight.value
    else if |hit.message.text| > SNIPPET_CHARS then hit.message.text[..SNIPPET_CHARS] + "..."
    else HtmlEscape(hit.message.text)
  }

  /** A long text of angle brackets reaches the HTML listing unescaped. */
  lemma SnippetAsWrittenLeaksTags()
    ensures '<' in SnippetAsWritten(SearchHit(ChatMessage(1, 1, None, None, "", seq(81, _ => '<'), 0, None, Text, None), None))
  {
    var t := seq(81, _ => '<');
    assert t[..SNIPPET_CHARS][0] == '<';
  }

  /** The snippet with the truncated text escaped as well. */
  function Snippet(hit: SearchHit): (r: string)
    ensures hit.highlight.Some? ==> r == hit.highlight.value
    ensures hit.highlight.None? ==> '<' !in r && '>' !in r
    ensures hit.highlight.None? && |hit.message.text| <= SNIPPET_CHARS ==> Unescape(r) == hit.message.text
  {
    if hit.highlight.Some? then hit.highlight.value
    else if |hit.message.text| > SNIPPET_CHARS then
      HtmlEscapeNoTags(hit.message.text[..SNIPPET_CHARS]);
      HtmlEscape(hit.message.text[..SNIPPET_CHARS]) + "..."
    else
      HtmlEscapeNoTags(hit.message.text);
      HtmlEscapeIsEscapeEach(hit.message.text);
      EscapeRoundTrip(hit.message.text);
      HtmlEscape(hit.message.text)
  }

  /** The entry number as the listing writes it: a page is taken to hold five entries. */
  function EntryNumberAsWritten(page: nat, i: nat): nat
  {
    page * 5 + i + 1
  }

  /**
    With ten entries per page, the first entry of page 2 is numbered like
    the sixth of page 1, where the rank-based number tells them apart.
   */
  lemma EntryNumbersAsWrittenCollide()
    ensures EntryNumberAsWritten(1, 0) == EntryNumberAsWritten(0, 5) == 6
    ensures EntryNumber(1, 10, 0) == 11 && EntryNumber(0, 10, 5) == 6
  {
  }

  /** The entry number: the rank of the entry among all hits. */
  function EntryNumber(page: nat, pageSize: nat, i: nat): (n: nat)
    ensures n == Offset(DefaultParams.(page := page, pageSize := pageSize)) + i + 1
  {
    page * pageSize + i + 1
  }

  /** A later page starts at least a whole page further on. */
  lemma {:induction false} PagesApart(a: nat, b: nat, pageSize: nat)
    requires a < b
    ensures a * pageSize + pageSize <= b * pageSize
    decreases b
  {
    assert b * pageSize == (b - 1) * pageSize + pageSize;
    if a < b - 1 {
      PagesApart(a, b - 1, pageSize);
    }
  }

  /** Entries on different pages or positions get different numbers. */
  lemma EntryNumbersDistinct(pageSize: nat, p1: nat, i1: nat, p2: nat, i2: nat)
    requires i1 < pageSize && i2 < pageSize
    ensures EntryNumber(p1, pageSize, i1) == EntryNumber(p2, pageSize, i2) <==> p1 == p2 && i1 == i2
  {
    if p1 < p2 {
      PagesApart(p1, p2, pageSize);
    } else if p2 < p1 {
      PagesApart(p2, p1, pageSize);
    }
  }

  /** The entry of every hit, as the listing writes it: numbered five to a page, snippets as written. */
  function EntryTextsAsWritten(r: SearchResult, chatId: int, formatDate: int -> string): (es: seq<string>)
    ensures |es| == |r.messages|
    ensures forall i :: 0 <= i < |es| ==> es[i] == EntryText(EntryNumberAsWritten(r.page, i), r.messages[i],
      formatDate(r.messages[i].message.date), SnippetAsWritten(r.messages[i]), chatId)
  {
    seq(|r.messages|, i requires 0 <= i < |r.messages| =>
      EntryText(EntryNumberAsWritten(r.page, i), r.messages[i], formatDate(r.messages[i].message.date),
        SnippetAsWritten(r.messages[i]), chatId))
  }

  /** The listing loop from hit `i` on writes the entries of the remaining hits, in order. */
  lemma {:induction false} EntriesAsWrittenInOrder(r: SearchResult, chatId: int, formatDate: int -> string, i: nat)
    requires i <= |r.messages|
    ensures EntriesAsWritten(r, chatId, formatDate, i) == Flatten(EntryTextsAsWritten(r, chatId, formatDate)[i..])
    decreases |r.messages| - i
  {
    var es := EntryTextsAsWritten(r, chatId, formatDate);
    if i < |r.messages| {
      EntriesAsWrittenInOrder(r, chatId, formatDate, i + 1);
      assert es[i..][1..] == es[i + 1..];
    }
  }

  function EntriesAsWritten(r: SearchResult, chatId: int, formatDate: int -> string, i: nat): string
    requires i <= |r.messages|
    decreases |r.messages| - i
  {
    if i == |r.messages| then ""
    else
      var hit := r.messages[i];
      EntryText(EntryNumberAsWritten(r.page, i), hit, formatDate(hit.message.date), SnippetAsWritten(hit), chatId)
        + EntriesAsWritten(r, chatId, formatDate, i + 1)
  }

  /**
    `format_results` as written: the fixed "not found" text when there is no
    hit, otherwise the header and one entry per hit. Date formatting is a
    parameter.
   */
  function FormatResultsAsWritten(r: SearchResult, chatId: int, formatDate: int -> string): (text: string)
    ensures text == NotFoundText <==> r.total == 0
    ensures r.total > 0 ==> text == Header(r) + Flatten(EntryTextsAsWritten(r, chatId, formatDate))
  {
    if r.total == 0 then NotFoundText
    else
      EntriesAsWrittenInOrder(r, chatId, formatDate, 0);
      var text := Header(r) + EntriesAsWritten(r, chatId, formatDate, 0);
      assert text[0] != NotFoundText[0];
      text
  }

  /** The entry of every hit: numbered by its rank among all hits, with the escaped snippet. */
  function EntryTexts(r: SearchResult, pageSize: nat, chatId: int, formatDate: int -> string): (es: seq<string>)
    ensures |es| == |r.messages|
    ensures forall i :: 0 <= i < |es| ==> es[i] == EntryText(EntryNumber(r.page, pageSize, i), r.messages[i],
      formatDate(r.messages[i].message.date), Snippet(r.messages[i]), chatId)
  {
    seq(|r.messages|, i requires 0 <= i < |r.messages| =>
      EntryText(EntryNumber(r.page, pageSize, i), r.messages[i], formatDate(r.messages[i].message.date),
        Snippet(r.messages[i]), chatId))
  }

  /** The listing loop from hit `i` on writes the entries of the remaining hits, in order. */
  lemma {:induction false} EntriesInOrder(r: SearchResult, pageSize: nat, chatId: int, formatDate: int -> string, i: nat)
    requires i <= |r.messages|
    ensures Entries(r, pageSize, chatId, formatDate, i) == Flatten(EntryTexts(r, pageSize, chatId, formatDate)[i..])
    decreases |r.messages| - i
  {
    var es := EntryTexts(r, pageSize, chatId, formatDate);
    if i < |r.messages| {
      EntriesInOrder(r, pageSize, chatId, formatDate, i + 1);
      assert es[i..][1..] == es[i + 1..];
    }
  }

  function Entries(r: SearchResult, pageSize: nat, chatId: int, formatDate: int -> string, i: nat): string
    requires i <= |r.messages|
    decreases |r.messages| - i
  {
    if i == |r.messages| then ""
    else
      var hit := r.messages[i];
      EntryText(EntryNumber(r.page, pageSize, i), hit, formatDate(hit.message.date), Snippet(hit), chatId)
        + Entries(r, pageSize, chatId, formatDate, i + 1)
  }

  /** The listing with escaped snippets and entries numbered by the page size searched with. */
  function FormatResults(r: SearchResult, pageSize: nat, chatId: int, formatDate: int -> string): (text: string)
    ensures text == NotFoundText <==> r.total == 0
    ensures r.total > 0 ==> text == Header(r) + Flatten(EntryTexts(r, pageSize, chatId, formatDate))
  {
    if r.total == 0 then NotFoundText
    else
      EntriesInOrder(r, pageSize, chatId, formatDate, 0);
      var text := Header(r) + Entries(r, pageSize, chatId, formatDate, 0);
      assert text[0] != NotFoundText[0];
      text
  }
}

=== FILE: common.dfy ===
/**
  Shared vocabulary of the model: optional values, fallible results, and the
  few pieces of Rust integer semantics (i64/i32/usize ranges, truncating
  division, `as i32` casts) that the modelled code relies on.
 */
module Common {

  /** Rust's `Option<T>`. */
  datatype Option<+T> = None | Some(value: T) {

    /** `unwrap_or`: the held value, or `default` when there is none. */
    function GetOr(default: T): T {
      match this
      case Some(v) => v
      case None => default
    }
  }

  /** `anyhow::Result<T>`: a value, or an error carrying its message. */
  datatype Result<+T> = Ok(value: T) | Err(message: string)

  const I32_MIN: int := -0x8000_0000
  const I32_MAX: int := 0x7FFF_FFFF
  const I64_MIN: int := -0x8000_0000_0000_0000
  const I64_MAX: int := 0x7FFF_FFFF_FFFF_FFFF
  /** One more than the largest `usize` (64-bit targets). */
  const USIZE_LIMIT: int := 0x1_0000_0000_0000_0000

  predicate IsI32(x: int) { I32_MIN <= x <= I32_MAX }
  predicate IsI64(x: int) { I64_MIN <= x <= I64_MAX }
  predicate IsUsize(x: int) { 0 <= x < USIZE_LIMIT }

  /** `StatusCode::is_success`: the 2xx range. */
  predicate IsSuccess(status: int) { 200 <= status < 300 }

  /** Rust's `/` on signed integers, which rounds toward zero. */
  function TruncDiv(a: int, b: int): (q: int)
    requires b > 0
    ensures a >= 0 ==> q * b <= a < q * b + b
    ensures a < 0 ==> q * b - b < a <= q * b
  {
    if a >= 0 then a / b else -((-a) / b)
  }

  /** Rust's `v as i32` on an `i64`: keeps the low 32 bits, two's complement. */
  function WrapI32(x: int): (r: int)
    ensures IsI32(r)
    ensures (x - r) % 0x1_0000_0000 == 0
    ensures IsI32(x) ==> r == x
  {
    (x - I32_MIN) % 0x1_0000_0000 + I32_MIN
  }

  /** ASCII lower-casing of one character (`to_ascii_lowercase`). */
  function AsciiLower(c: char): (r: char)
    ensures !('A' <= r <= 'Z')
    ensures !('A' <= c <= 'Z') ==> r == c
  {
    if 'A' <= c <= 'Z' then (c as int + 32) as char else c
  }

  /** Lower-casing of a whole string, character by character. */
  function Lower(s: string): (r: string)
    ensures |r| == |s|
    ensures forall i :: 0 <= i < |s| ==> r[i] == AsciiLower(s[i])
  {
    if |s| == 0 then [] else [AsciiLower(s[0])] + Lower(s[1..])
  }

  lemma LowerIdempotent(s: string)
    ensures Lower(Lower(s)) == Lower(s)
  {
  }

  /** Number of `true` entries. */
  function CountTrue(s: seq<bool>): (n: nat)
    ensures n <= |s|
  {
    if |s| == 0 then 0 else (if s[0] then 1 else 0) + CountTrue(s[1..])
  }

  /** Concatenation of a sequence of sequences. */
  function Flatten<T>(ss: seq<seq<T>>): seq<T>
  {
    if |ss| == 0 then [] else ss[0] + Flatten(ss[1..])
  }

  lemma {:induction false} FlattenAppend<T>(ss: seq<seq<T>>, s: seq<T>)
    ensures Flatten(ss + [s]) == Flatten(ss) + s
  {
    if |ss| == 0 {
      assert ss + [s] == [s];
    } else {
      assert (ss + [s])[1..] == ss[1..] + [s];
      FlattenAppend(ss[1..], s);
    }
  }

  predicate StartsWithAt(s: string) { |s| > 0 && s[0] == '@' }

  /** `trim_start_matches('@')`: every leading '@' removed. */
  function TrimAt(s: string): (r: string)
    ensures |r| <= |s| && !StartsWithAt(r)
  {
    if StartsWithAt(s) then TrimAt(s[1..]) else s
  }

  /** What is trimmed is a run of '@'s, and what is kept is the rest of the text. */
  lemma {:induction false} TrimAtStripsAts(s: string)
    ensures var r := TrimAt(s);
      && r == s[|s| - |r|..]
      && forall i :: 0 <= i < |s| - |r| ==> s[i] == '@'
  {
    if StartsWithAt(s) {
      TrimAtStripsAts(s[1..]);
      var r := TrimAt(s);
      assert r == TrimAt(s[1..]);
      assert s[1..][|s| - 1 - |r|..] == s[|s| - |r|..];
      assert forall i :: 1 <= i < |s| - |r| ==> s[i] == s[1..][i - 1];
    }
  }
}

=== FILE: decimal.dfy ===
/**
  Decimal text of integers, as Rust's `Display` for `i64`/`usize` writes it
  (used by `format!` in document ids and callback data), and Rust's
  `str::parse::<usize>` reading it back.
 */
module Decimal {
  import opened Common

  predicate IsDigit(c: char) { '0' <= c <= '9' }

  predicate AllDigits(s: string) { forall i :: 0 <= i < |s| ==> IsDigit(s[i]) }

  function DigitChar(d: nat): (c: char)
    requires d < 10
    ensures IsDigit(c)
  {
    "0123456789"[d]
  }

  function DigitValue(c: char): (d: nat)
    requires IsDigit(c)
    ensures d < 10
  {
    (c as int) - ('0' as int)
  }

  lemma DigitRoundTrip(d: nat)
    requires d < 10
    ensures DigitValue(DigitChar(d)) == d
  {
  }

  /** Shortest decimal text of `n`: digits only, no leading zero. */
  function NatToString(n: nat): (s: string)
    ensures |s| >= 1 && AllDigits(s)
    ensures |s| > 1 ==> s[0] != '0'
    decreases n
  {
    if n < 10 then [DigitChar(n)] else NatToString(n / 10) + [DigitChar(n % 10)]
  }

  /** Value of a string of decimal digits (the empty string reads as 0). */
  function DigitsValue(s: string): nat
    requires AllDigits(s)
  {
    if |s| == 0 then 0 else DigitsValue(s[..|s| - 1]) * 10 + DigitValue(s[|s| - 1])
  }

  lemma {:induction false} NatToStringRoundTrip(n: nat)
    ensures DigitsValue(NatToString(n)) == n
    decreases n
  {
    var s := NatToString(n);
    if n < 10 {
      DigitRoundTrip(n);
    } else {
      var prefix := NatToString(n / 10);
      assert s == prefix + [DigitChar(n % 10)];
      assert s[..|s| - 1] == prefix;
      NatToStringRoundTrip(n / 10);
      DigitRoundTrip(n % 10);
    }
  }

  /** Rust's `Display` for signed integers: a '-' before the digits of |i|. */
  function IntToString(i: int): (s: string)
    ensures |s| >= 1
    ensures '_' !in s && ':' !in s && '/' !in s
    ensures i >= 0 <==> s[0] != '-'
  {
    if i < 0 then "-" + NatToString(-i) else NatToString(i)
  }

  /** Reads back the text `IntToString` writes: an optional '-' and at least one digit. */
  function ParseInt(s: string): Option<int>
  {
    if |s| > 0 && s[0] == '-' then
      (if |s| > 1 && AllDigits(s[1..]) then Some(-(DigitsValue(s[1..]) as int)) else None)
    else if |s| > 0 && AllDigits(s) then Some(DigitsValue(s) as int)
    else None
  }

  lemma IntToStringRoundTrip(i: int)
    ensures ParseInt(IntToString(i)) == Some(i)
  {
    if i < 0 {
      var s := IntToString(i);
      assert s[1..] == NatToString(-i);
      NatToStringRoundTrip(-i);
    } else {
      NatToStringRoundTrip(i);
    }
  }

  lemma IntToStringInjective(a: int, b: int)
    ensures IntToString(a) == IntToString(b) ==> a == b
  {
    IntToStringRoundTrip(a);
    IntToStringRoundTrip(b);
  }

  /**
    Rust's `str::parse::<usize>`: an optional leading '+', then one or more
    decimal digits whose value fits in a `usize`; anything else is an error.
   */
  function ParseUsize(s: string): (r: Option<nat>)
    ensures r.Some? ==> IsUsize(r.value)
    ensures r.Some? ==> |s| > 0 && (IsDigit(s[0]) || s[0] == '+')
    ensures r.Some? ==> AllDigits(s) || (s[0] == '+' && |s| > 1 && AllDigits(s[1..]))
    ensures r.Some? ==> '-' !in s
    ensures s == "" || s == "+" ==> r.None?
  {
    var digits := if |s| > 0 && s[0] == '+' then s[1..] else s;
    if |digits| == 0 || !AllDigits(digits) then None
    else if DigitsValue(digits) < USIZE_LIMIT then Some(DigitsValue(digits))
    else None
  }

  lemma ParseUsizeRoundTrip(n: nat)
    requires IsUsize(n)
    ensures ParseUsize(NatToString(n)) == Some(n)
  {
    NatToStringRoundTrip(n);
  }
}

=== FILE: indexer.dfy ===
/**
  The live indexer: a bounded queue in front of a background loop that
  buffers archived messages and writes them to the search index in bulk,
  when the buffer fills, on every timer tick, and once more when the queue
  closes. The loop is modelled as a fold over the events it reacts to.
 */
module Indexer {
  import opened Common
  import opened Message
  import opened Bulk

  // ---------------------------------------------------------------------
  // The queue in front of the loop
  // ---------------------------------------------------------------------

  /**
    The queue is created with room for four batches. A batch size of 0 asks
    for a queue of no room, which `mpsc::channel` refuses with a panic.
   */
  function QueueCapacity(batchSize: nat): (c: nat)
    requires batchSize >= 1
    ensures c >= 4 && c % batchSize == 0 && c / batchSize == 4
  {
    batchSize * 4
  }

  /** The sending side of the queue, as `index` sees it. */
  datatype Queue = Queue(pending: seq<ChatMessage>, capacity: nat, receiverAlive: bool)

  /** What `index` did with a message; none of these is an error for the caller. */
  datatype Queued = Enqueued | Waiting | DroppedWithWarning

  /**
    `BatchIndexer::index`: a full queue makes the send wait, a closed queue
    drops the message with a warning, otherwise the message joins the end of
    the queue. The caller never sees a failure.
   */
  function Index(q: Queue, msg: ChatMessage): (r: (Queue, Queued))
    ensures r.1 == DroppedWithWarning <==> !q.receiverAlive
    ensures r.1 == Enqueued <==> q.receiverAlive && |q.pending| < q.capacity
    ensures r.1 == Enqueued ==> r.0.pending == q.pending + [msg]
    ensures r.1 != Enqueued ==> r.0 == q
    ensures r.0.capacity == q.capacity && r.0.receiverAlive == q.receiverAlive
  {
    if !q.receiverAlive then (q, DroppedWithWarning)
    else if |q.pending| < q.capacity then (q.(pending := q.pending + [msg]), Enqueued)
    else (q, Waiting)
  }

  /** A freshly created queue has room, so the first messages are accepted at once. */
  lemma FreshQueueAccepts(batchSize: nat, msgs: seq<ChatMessage>, msg: ChatMessage)
    requires batchSize >= 1 && |msgs| < 4
    ensures Index(Queue(msgs, QueueCapacity(batchSize), true), msg).1 == Enqueued
  {
  }

  // ---------------------------------------------------------------------
  // One flush
  // ---------------------------------------------------------------------

  /** The documents of a buffer, keyed by their chat and message ids. */
  function ChatItems(msgs: seq<ChatMessage>): (items: seq<BulkItem>)
    ensures |items| == |msgs|
    ensures forall i :: 0 <= i < |msgs| ==> items[i] == BulkItem(msgs[i].chatId, msgs[i].messageId, Serialize(msgs[i]))
  {
    seq(|msgs|, i requires 0 <= i < |msgs| => BulkItem(msgs[i].chatId, msgs[i].messageId, Serialize(msgs[i])))
  }

  /** What `flush_buffer` logs about a bulk write. */
  datatype FlushLog =
    | RequestFailed
    | BadStatus(status: int)
    | Unreadable
    | ItemErrors(failed: nat, count: nat)
    | Indexed(count: nat)

  /** A flush: what is left in the buffer, the request sent (if any), and the log line. */
  datatype FlushResult = FlushResult(remaining: seq<ChatMessage>, request: Option<seq<BulkLine>>, log: Option<FlushLog>)

  /**
    `flush_buffer`: the buffer is drained into a bulk body whatever happens
    next; an empty body sends nothing; otherwise the reply only decides what
    is logged, and nothing is retried or put back.
   */
  function FlushBuffer(buffer: seq<ChatMessage>, reply: BulkReply): (r: FlushResult)
    ensures r.remaining == []
    ensures r.request.Some? <==> |buffer| > 0
    ensures r.log.Some? <==> |buffer| > 0
    ensures r.request.Some? ==> |r.request.value| == 2 * |buffer|
    ensures r.request.Some? ==> forall i :: 0 <= i < |buffer| ==>
      r.request.value[2 * i] == Action(DocId(buffer[i].chatId, buffer[i].messageId))
      && r.request.value[2 * i + 1] == Source(Serialize(buffer[i]))
  {
    var body := Body(ChatItems(buffer));
    if |body| == 0 then FlushResult([], None, None)
    else
      var log := match reply
        case SendFailed => RequestFailed
        case Replied(status, b) =>
          if !IsSuccess(status) then BadStatus(status)
          else if b.None? then Unreadable
          else if b.value.errors.GetOr(false) then ItemErrors(CountTrue(b.value.items.GetOr([])), |buffer|)
          else Indexed(|buffer|);
      FlushResult([], Some(body), Some(log))
  }

  /**
    The indexer and the migration read a bulk reply alike: the indexer logs
    success exactly when the migration would count the write, and the items
    it logs as failed are those the migration does not count.
   */
  lemma FlushLogAgreesWithAccepted(buffer: seq<ChatMessage>, reply: BulkReply)
    requires |buffer| > 0 && ReplyFits(reply, |buffer|)
    ensures var log := FlushBuffer(buffer, reply).log.value;
      && (log.ItemErrors? || log.Indexed? <==> Accepted(|buffer|, reply).Ok?)
      && (log.Indexed? ==> Accepted(|buffer|, reply) == Ok(|buffer|))
      && (log.ItemErrors? ==> Accepted(|buffer|, reply) == Ok(|buffer| - log.failed))
  {
  }

  // ---------------------------------------------------------------------
  // The flush loop
  // ---------------------------------------------------------------------

  /** What wakes the loop: a message from the queue, the timer, or the queue closing. */
  datatype Event = Recv(msg: ChatMessage) | Tick | Closed

  /** The loop's buffer, the batches it has flushed so far, and whether it still runs. */
  datatype LoopState = LoopState(buffer: seq<ChatMessage>, flushed: seq<seq<ChatMessage>>, running: bool)

  const Start: LoopState := LoopState([], [], true)

  /** A flush as the loop sees it: the buffer becomes the next batch and is emptied. */
  function FlushNow(st: LoopState): (r: LoopState)
    ensures Flatten(r.flushed) + r.buffer == Flatten(st.flushed) + st.buffer
    ensures r.buffer == [] && r.running == st.running
  {
    FlattenAppend(st.flushed, st.buffer);
    st.(buffer := [], flushed := st.flushed + [st.buffer])
  }

  /** One turn of the `select!` loop; after the queue closed the loop has returned. */
  function Step(st: LoopState, ev: Event, batchSize: nat): LoopState
  {
    if !st.running then st
    else
      match ev
      case Recv(m) =>
        var grown := st.(buffer := st.buffer + [m]);
        if |grown.buffer| >= batchSize then FlushNow(grown) else grown
      case Tick => if |st.buffer| > 0 then FlushNow(st) else st
      case Closed => (if |st.buffer| > 0 then FlushNow(st) else st).(running := false)
  }

  /** A tick on an empty buffer changes nothing. */
  lemma IdleTick(st: LoopState, batchSize: nat)
    requires st.buffer == []
    ensures Step(st, Tick, batchSize) == st
  {
  }

  /** The messages the loop received before the queue closed, in order. */
  function Delivered(evs: seq<Event>): seq<ChatMessage>
  {
    if |evs| == 0 then []
    else
      var pre, last := evs[..|evs| - 1], evs[|evs| - 1];
      Delivered(pre) + (if Closed !in pre && last.Recv? then [last.msg] else [])
  }

  /** What holds between events: a short buffer, empty once stopped, and non-empty batches no larger than a batch. */
  ghost predicate Between(st: LoopState, batchSize: nat)
  {
    && (!st.running ==> st.buffer == [])
    && (batchSize >= 1 ==> |st.buffer| < batchSize)
    && forall i :: 0 <= i < |st.flushed| ==> 0 < |st.flushed[i]| && (batchSize >= 1 ==> |st.flushed[i]| <= batchSize)
  }

  /** One event keeps `Between`, appends a received message, and only `Closed` stops the loop. */
  lemma StepKeepsBetween(st: LoopState, ev: Event, batchSize: nat)
    requires Between(st, batchSize)
    ensures Between(Step(st, ev, batchSize), batchSize)
    ensures !st.running ==> Step(st, ev, batchSize) == st
    ensures st.running ==> (Step(st, ev, batchSize).running <==> ev != Closed)
    ensures st.running ==>
      (Flatten(Step(st, ev, batchSize).flushed) + Step(st, ev, batchSize).buffer
       == Flatten(st.flushed) + st.buffer + (if ev.Recv? then [ev.msg] else []))
    ensures st.running && ev.Recv? && |st.buffer| + 1 >= batchSize ==>
      Step(st, ev, batchSize).buffer == [] && Step(st, ev, batchSize).flushed == st.flushed + [st.buffer + [ev.msg]]
    ensures st.running && ev.Recv? && |st.buffer| + 1 < batchSize ==>
      Step(st, ev, batchSize).buffer == st.buffer + [ev.msg] && Step(st, ev, batchSize).flushed == st.flushed
    ensures st.running && !ev.Recv? && |st.buffer| > 0 ==>
      Step(st, ev, batchSize).buffer == [] && Step(st, ev, batchSize).flushed == st.flushed + [st.buffer]
    ensures st.running && !ev.Recv? && |st.buffer| == 0 ==> Step(st, ev, batchSize).flushed == st.flushed
  {
    if st.running {
      var r := Step(st, ev, batchSize);
      match ev {
        case Recv(m) =>
          var grown := st.(buffer := st.buffer + [m]);
          assert Flatten(grown.flushed) + grown.buffer == Flatten(st.flushed) + st.buffer + [m];
          if |grown.buffer| >= batchSize {
            assert r == FlushNow(grown);
            assert forall i :: 0 <= i < |r.flushed| ==> r.flushed[i] == if i < |st.flushed| then st.flushed[i] else grown.buffer;
          }
        case Tick =>
          if |st.buffer| > 0 {
            assert forall i :: 0 <= i < |r.flushed| ==> r.flushed[i] == if i < |st.flushed| then st.flushed[i] else st.buffer;
          } else {
            assert st.buffer == [];
          }
        case Closed =>
          if |st.buffer| > 0 {
            assert forall i :: 0 <= i < |r.flushed| ==> r.flushed[i] == if i < |st.flushed| then st.flushed[i] else st.buffer;
          } else {
            assert st.buffer == [];
          }
      }
    }
  }

  /**
    The loop over a finite list of events. Between events the buffer holds
    fewer messages than a batch, every batch flushed is non-empty and no
    larger than a batch, and the flushed batches followed by the buffer are
    exactly the messages received, in order; once the queue has closed the
    buffer is empty.
   */
  function Run(evs: seq<Event>, batchSize: nat): (st: LoopState)
    ensures Flatten(st.flushed) + st.buffer == Delivered(evs)
    ensures st.running <==> Closed !in evs
    ensures !st.running ==> st.buffer == []
    ensures batchSize >= 1 ==> |st.buffer| < batchSize
    ensures forall i :: 0 <= i < |st.flushed| ==> 0 < |st.flushed[i]| && (batchSize >= 1 ==> |st.flushed[i]| <= batchSize)
  {
    if |evs| == 0 then Start
    else
      var pre, last := evs[..|evs| - 1], evs[|evs| - 1];
      var before := Run(pre, batchSize);
      assert Between(before, batchSize);
      StepKeepsBetween(before, last, batchSize);
      assert Closed in evs <==> Closed in pre || last == Closed by {
        assert evs == pre + [last];
      }
      Step(before, last, batchSize)
  }

  /**
    Every message received before the queue closed is flushed exactly once,
    in the order received, once the loop has returned.
   */
  lemma ClosedFlushesAll(evs: seq<Event>, batchSize: nat)
    requires Closed in evs
    ensures Flatten(Run(evs, batchSize).flushed) == Delivered(evs)
  {
    var st := Run(evs, batchSize);
    assert st.buffer == [];
    assert Flatten(st.flushed) + [] == Flatten(st.flushed);
  }

  /** Events after the queue closed change nothing. */
  lemma {:induction false} AfterCloseIgnored(evs: seq<Event>, later: seq<Event>, batchSize: nat)
    requires Closed in evs
    ensures Run(evs + later, batchSize) == Run(evs, batchSize)
    decreases |later|
  {
    if |later| > 0 {
      var pre := later[..|later| - 1];
      AfterCloseIgnored(evs, pre, batchSize);
      assert (evs + later)[..|evs + later| - 1] == evs + pre;
      assert !Run(evs + pre, batchSize).running;
    } else {
      assert evs + later == evs;
    }
  }
}

=== FILE: message.dfy ===
/**
  The archived message record (`ChatMessage`), its kind (`MessageType`), and
  the JSON document serde writes for it into the search index.
 */
module Message {
  import opened Common

  /** The closed set of message kinds. */
  datatype MessageType = Text | Photo | Video | Document | Sticker | Voice | Animation | Other

  const AllTypes: seq<MessageType> := [Text, Photo, Video, Document, Sticker, Voice, Animation, Other]

  /** The `Display` impl: one lower-case word per kind. */
  function TypeName(t: MessageType): (s: string)
    ensures |s| > 0
    ensures forall i :: 0 <= i < |s| ==> 'a' <= s[i] <= 'z'
  {
    match t
    case Text => "text"
    case Photo => "photo"
    case Video => "video"
    case Document => "document"
    case Sticker => "sticker"
    case Voice => "voice"
    case Animation => "animation"
    case Other => "other"
  }

  /** The Rust identifier of each variant, which serde renames. */
  function VariantName(t: MessageType): string
  {
    match t
    case Text => "Text"
    case Photo => "Photo"
    case Video => "Video"
    case Document => "Document"
    case Sticker => "Sticker"
    case Voice => "Voice"
    case Animation => "Animation"
    case Other => "Other"
  }

  /**
    serde's `rename_all = "snake_case"` on an identifier: every upper-case
    letter after the first character gets a '_' before it, and all letters
    are lower-cased.
   */
  function SnakeCase(ident: string): string
  {
    if |ident| == 0 then "" else [AsciiLower(ident[0])] + SnakeTail(ident[1..])
  }

  function SnakeTail(s: string): string
  {
    if |s| == 0 then ""
    else (if 'A' <= s[0] <= 'Z' then "_" else "") + [AsciiLower(s[0])] + SnakeTail(s[1..])
  }

  /** Without inner capitals, the tail is copied unchanged. */
  lemma {:induction false} SnakeTailLowercase(s: string)
    requires forall i :: 0 <= i < |s| ==> 'a' <= s[i] <= 'z'
    ensures SnakeTail(s) == s
  {
    if |s| > 0 {
      SnakeTailLowercase(s[1..]);
    }
  }

  /** Each variant identifier is its display text with a capital first letter. */
  lemma VariantSpelling(t: MessageType)
    ensures |VariantName(t)| == |TypeName(t)| > 0
    ensures VariantName(t)[1..] == TypeName(t)[1..]
    ensures AsciiLower(VariantName(t)[0]) == TypeName(t)[0]
  {
  }

  /** The display text of every kind is the name serde serializes it under. */
  lemma DisplayIsSerdeName(t: MessageType)
    ensures TypeName(t) == SnakeCase(VariantName(t))
  {
    var v, w := VariantName(t), TypeName(t);
    VariantSpelling(t);
    SnakeTailLowercase(w[1..]);
    assert w == [w[0]] + w[1..];
  }

  /** serde's deserialization of a kind from its snake_case name. */
  function ParseTypeName(s: string): (r: Option<MessageType>)
    ensures r.Some? ==> TypeName(r.value) == s
  {
    if s == "text" then Some(Text)
    else if s == "photo" then Some(Photo)
    else if s == "video" then Some(Video)
    else if s == "document" then Some(Document)
    else if s == "sticker" then Some(Sticker)
    else if s == "voice" then Some(Voice)
    else if s == "animation" then Some(Animation)
    else if s == "other" then Some(Other)
    else None
  }

  lemma TypeNameRoundTrip(t: MessageType)
    ensures ParseTypeName(TypeName(t)) == Some(t)
  {
  }

  /** Distinct kinds display differently, and exactly eight names exist. */
  lemma TypeNameInjective(a: MessageType, b: MessageType)
    ensures TypeName(a) == TypeName(b) <==> a == b
    ensures |AllTypes| == 8 && a in AllTypes
  {
    TypeNameRoundTrip(a);
    TypeNameRoundTrip(b);
  }

  /**
    One archived message. The fields after `chatId` that the index document
    does not carry (`username`, `displayName`, `replyToMessageId`,
    `chatTitle`) belong to the record the recorder builds.
   */
  datatype ChatMessage = ChatMessage(
    messageId: int,
    chatId: int,
    userId: Option<int>,
    username: Option<string>,
    displayName: string,
    text: string,
    date: int,
    replyToMessageId: Option<int>,
    messageType: MessageType,
    chatTitle: Option<string>)

  /** A JSON scalar, as much of `serde_json::Value` as the documents use. */
  datatype Json = JInt(i: int) | JStr(s: string) | JNull

  /** A JSON object, its members in serialization order. */
  type Doc = seq<(string, Json)>

  /** Value of the first member named `key`. */
  function Lookup(doc: Doc, key: string): (r: Option<Json>)
    ensures r.Some? <==> exists i :: 0 <= i < |doc| && doc[i].0 == key
  {
    if |doc| == 0 then None
    else if doc[0].0 == key then Some(doc[0].1)
    else Lookup(doc[1..], key)
  }

  lemma {:induction false} LookupAt(doc: Doc, key: string, i: nat)
    requires i < |doc| && doc[i].0 == key
    requires forall j :: 0 <= j < i ==> doc[j].0 != key
    ensures Lookup(doc, key) == Some(doc[i].1)
  {
    if i > 0 {
      LookupAt(doc[1..], key, i - 1);
    }
  }

  /**
    The index document serde writes: the fields in declaration order, with
    `user_id` left out when there is no sender.
   */
  function Serialize(m: ChatMessage): (doc: Doc)
  {
    [("message_id", JInt(m.messageId)), ("chat_id", JInt(m.chatId))]
    + (if m.userId.Some? then [("user_id", JInt(m.userId.value))] else [])
    + [("text", JStr(m.text)), ("date", JInt(m.date)), ("message_type", JStr(TypeName(m.messageType)))]
  }

  /** The stored document names `user_id` exactly when the message has a sender. */
  lemma SerializeOmitsMissingUser(m: ChatMessage)
    ensures Lookup(Serialize(m), "user_id").Some? <==> m.userId.Some?
    ensures m.userId.Some? ==> Lookup(Serialize(m), "user_id") == Some(JInt(m.userId.value))
  {
    var doc := Serialize(m);
    if m.userId.Some? {
      LookupAt(doc, "user_id", 2);
    } else {
      assert forall i :: 0 <= i < |doc| ==> doc[i].0 != "user_id";
    }
  }

  /** What a message keeps once it has been through the index document. */
  function Stored(m: ChatMessage): ChatMessage
  {
    ChatMessage(m.messageId, m.chatId, m.userId, None, "", m.text, m.date, None, m.messageType, None)
  }

  function IntField(doc: Doc, key: string): Option<int>
  {
    match Lookup(doc, key)
    case Some(JInt(i)) => Some(i)
    case _ => None
  }

  function StrField(doc: Doc, key: string): Option<string>
  {
    match Lookup(doc, key)
    case Some(JStr(s)) => Some(s)
    case _ => None
  }

  /**
    serde's deserialization of an index document: every field but `user_id`
    is required, `user_id` may be absent or null, other members are ignored.
   */
  function Deserialize(doc: Doc): (r: Option<ChatMessage>)
    ensures r.Some? ==> Lookup(doc, "message_id") == Some(JInt(r.value.messageId))
    ensures r.Some? ==> Lookup(doc, "chat_id") == Some(JInt(r.value.chatId))
  {
    var user := Lookup(doc, "user_id");
    if IntField(doc, "message_id").None? || IntField(doc, "chat_id").None?
       || StrField(doc, "text").None? || IntField(doc, "date").None?
       || StrField(doc, "message_type").None?
       || ParseTypeName(StrField(doc, "message_type").value).None?
       || !(user.None? || user == Some(JNull) || user.value.JInt?)
    then None
    else
      Some(ChatMessage(
        IntField(doc, "message_id").value,
        IntField(doc, "chat_id").value,
        if user.Some? && user.value.JInt? then Some(user.value.i) else None,
        None, "",
        StrField(doc, "text").value,
        IntField(doc, "date").value,
        None,
        ParseTypeName(StrField(doc, "message_type").value).value,
        None))
  }

  /** Reading back a stored document recovers every field the document carries. */
  lemma SerializeRoundTrip(m: ChatMessage)
    ensures Deserialize(Serialize(m)) == Some(Stored(m))
  {
    var doc := Serialize(m);
    SerializeOmitsMissingUser(m);
    TypeNameRoundTrip(m.messageType);
    var k := if m.userId.Some? then 1 else 0;
    LookupAt(doc, "message_id", 0);
    LookupAt(doc, "chat_id", 1);
    LookupAt(doc, "text", 2 + k);
    LookupAt(doc, "date", 3 + k);
    LookupAt(doc, "message_type", 4 + k);
  }
}

=== FILE: migrate.dfy ===
/**
  The one-shot backfill from the legacy Mongo collection into the search
  index: tolerant parsing of legacy documents, their conversion to index
  records, the bulk write and its accounting, the per-group watermarks read
  from the index, and the per-group batch/flush/count loop.
 */
module Migrate {
  import opened Common
  import opened Decimal
  import opened Message
  import opened Bulk

  // ---------------------------------------------------------------------
  // Legacy documents
  // ---------------------------------------------------------------------

  /** The BSON values the parser distinguishes. */
  datatype Bson =
    | Int32(i: int)
    | Int64(i: int)
    | DateTime(millis: int)
    | Str(s: string)
    | Embedded(fields: map<string, Bson>)
    | Double(x: real)
    | OtherValue

  type Document = map<string, Bson>

  /** `Document::get_i64`: present only when the field holds an Int64. */
  function GetI64(d: Document, key: string): Option<int>
  {
    if key in d && d[key].Int64? then Some(d[key].i) else None
  }

  function GetI32(d: Document, key: string): Option<int>
  {
    if key in d && d[key].Int32? then Some(d[key].i) else None
  }

  function GetDateTime(d: Document, key: string): Option<int>
  {
    if key in d && d[key].DateTime? then Some(d[key].millis) else None
  }

  function GetStr(d: Document, key: string): Option<string>
  {
    if key in d && d[key].Str? then Some(d[key].s) else None
  }

  function GetDocument(d: Document, key: string): Option<Document>
  {
    if key in d && d[key].Embedded? then Some(d[key].fields) else None
  }

  /** One way of reading an integer field out of a legacy document. */
  datatype IntSource =
    | TopI64(key: string)
    | TopI32(key: string)
    | CtxI64(key: string)          // inside the embedded `msg_ctx` document
    | CtxI32(key: string)
    | DateTimeSeconds(key: string) // a BSON datetime, in whole seconds

  function ReadInt(d: Document, src: IntSource): Option<int>
  {
    match src
    case TopI64(k) => GetI64(d, k)
    case TopI32(k) => GetI32(d, k)
    case CtxI64(k) => (match GetDocument(d, "msg_ctx") case Some(ctx) => GetI64(ctx, k) case None => None)
    case CtxI32(k) => (match GetDocument(d, "msg_ctx") case Some(ctx) => GetI32(ctx, k) case None => None)
    case DateTimeSeconds(k) =>
      (match GetDateTime(d, k) case Some(ms) => Some(TruncDiv(ms, 1000)) case None => None)
  }

  /** One way of reading a text field out of a legacy document. */
  datatype StrSource =
    | CtxStr(key: string)
    | TopStr(key: string)
    | I32Text(key: string)       // an Int32, written in decimal
    | I64AsI32Text(key: string)  // an Int64 cast `as i32`, written in decimal

  function ReadStr(d: Document, src: StrSource): Option<string>
  {
    match src
    case CtxStr(k) => (match GetDocument(d, "msg_ctx") case Some(ctx) => GetStr(ctx, k) case None => None)
    case TopStr(k) => GetStr(d, k)
    case I32Text(k) => (match GetI32(d, k) case Some(v) => Some(IntToString(v)) case None => None)
    case I64AsI32Text(k) => (match GetI64(d, k) case Some(v) => Some(IntToString(WrapI32(v))) case None => None)
  }

  /** The `or_else` chain: the value of the first source that yields one. */
  function FirstSome<S, V>(read: S -> Option<V>, sources: seq<S>): (r: Option<V>)
    ensures r.Some? <==> exists i :: 0 <= i < |sources| && read(sources[i]).Some?
    ensures r.Some? ==> exists i :: 0 <= i < |sources| && read(sources[i]) == r
                                   && forall j :: 0 <= j < i ==> read(sources[j]).None?
  {
    if |sources| == 0 then None
    else if read(sources[0]).Some? then read(sources[0])
    else
      var rest := FirstSome(read, sources[1..]);
      assert forall i :: 0 < i < |sources| ==> sources[i] == sources[1..][i - 1];
      rest
  }

  const MessageIdSources: seq<IntSource> :=
    [CtxI64("message_id"), CtxI32("message_id"), TopI64("message_id"), TopI32("message_id")]
  const ChatIdSources: seq<IntSource> :=
    [TopI64("group_id"), TopI64("chat_id"), TopI32("group_id"), TopI32("chat_id")]
  const UserIdSources: seq<IntSource> := [TopI64("user_id"), TopI32("user_id")]
  const DateSources: seq<IntSource> :=
    [DateTimeSeconds("timestamp"), DateTimeSeconds("date"),
     TopI64("date"), TopI64("timestamp"), TopI32("date"), TopI32("timestamp")]
  const TextSources: seq<StrSource> := [CtxStr("command"), TopStr("text"), TopStr("content")]
  const TypeSources: seq<StrSource> :=
    [I32Text("msg_type"), I64AsI32Text("msg_type"), TopStr("message_type"), TopStr("msg_type"), TopStr("type")]

  lemma FirstSomeUnfold<S, V>(read: S -> Option<V>, sources: seq<S>)
    requires |sources| > 0
    ensures FirstSome(read, sources) == if read(sources[0]).Some? then read(sources[0]) else FirstSome(read, sources[1..])
  {
  }

  /** Reading six sources in turn. */
  lemma FirstSomeSix<S, V>(read: S -> Option<V>, sources: seq<S>)
    requires |sources| == 6
    ensures FirstSome(read, sources) ==
      if read(sources[0]).Some? then read(sources[0])
      else if read(sources[1]).Some? then read(sources[1])
      else if read(sources[2]).Some? then read(sources[2])
      else if read(sources[3]).Some? then read(sources[3])
      else if read(sources[4]).Some? then read(sources[4])
      else read(sources[5])
  {
    var s := sources;
    FirstSomeUnfold(read, s);
    FirstSomeUnfold(read, s[1..]);
    FirstSomeUnfold(read, s[2..]);
    FirstSomeUnfold(read, s[3..]);
    FirstSomeUnfold(read, s[4..]);
    FirstSomeUnfold(read, s[5..]);
    assert s[1..][1..] == s[2..] && s[2..][1..] == s[3..] && s[3..][1..] == s[4..];
    assert s[4..][1..] == s[5..] && s[5..][1..] == [];
  }

  function MessageIdOf(d: Document): Option<int> { FirstSome((s: IntSource) => ReadInt(d, s), MessageIdSources) }
  function ChatIdOf(d: Document): Option<int> { FirstSome((s: IntSource) => ReadInt(d, s), ChatIdSources) }
  function UserIdOf(d: Document): Option<int> { FirstSome((s: IntSource) => ReadInt(d, s), UserIdSources) }
  function DateOf(d: Document): Option<int> { FirstSome((s: IntSource) => ReadInt(d, s), DateSources) }
  function TextOf(d: Document): Option<string> { FirstSome((s: StrSource) => ReadStr(d, s), TextSources) }
  function TypeTextOf(d: Document): Option<string> { FirstSome((s: StrSource) => ReadStr(d, s), TypeSources) }

  /** `message_id`: `msg_ctx.message_id` as i64 then i32, then the top-level field as i64 then i32. */
  lemma MessageIdOrder(d: Document)
    ensures MessageIdOf(d) ==
      var ctx := GetDocument(d, "msg_ctx");
      if ctx.Some? && GetI64(ctx.value, "message_id").Some? then GetI64(ctx.value, "message_id")
      else if ctx.Some? && GetI32(ctx.value, "message_id").Some? then GetI32(ctx.value, "message_id")
      else if GetI64(d, "message_id").Some? then GetI64(d, "message_id")
      else GetI32(d, "message_id")
  {
    var ctx := GetDocument(d, "msg_ctx");
    assert ReadInt(d, CtxI64("message_id")) == if ctx.Some? then GetI64(ctx.value, "message_id") else None;
    assert ReadInt(d, CtxI32("message_id")) == if ctx.Some? then GetI32(ctx.value, "message_id") else None;
  }

  /** `chat_id`: `group_id` i64, `chat_id` i64, `group_id` i32, `chat_id` i32. */
  lemma ChatIdOrder(d: Document)
    ensures ChatIdOf(d) ==
      if GetI64(d, "group_id").Some? then GetI64(d, "group_id")
      else if GetI64(d, "chat_id").Some? then GetI64(d, "chat_id")
      else if GetI32(d, "group_id").Some? then GetI32(d, "group_id")
      else GetI32(d, "chat_id")
  {
  }

  /**
    `date`: a datetime `timestamp` or `date` (milliseconds divided by 1000,
    rounding toward zero) wins over any integer field; then `date` and
    `timestamp` as i64, then both as i32.
   */
  lemma DateOrder(d: Document)
    ensures GetDateTime(d, "timestamp").Some? ==> DateOf(d) == Some(TruncDiv(GetDateTime(d, "timestamp").value, 1000))
    ensures GetDateTime(d, "timestamp").None? && GetDateTime(d, "date").Some? ==>
      DateOf(d) == Some(TruncDiv(GetDateTime(d, "date").value, 1000))
    ensures GetDateTime(d, "timestamp").None? && GetDateTime(d, "date").None? ==> (DateOf(d) ==
      if GetI64(d, "date").Some? then GetI64(d, "date")
      else if GetI64(d, "timestamp").Some? then GetI64(d, "timestamp")
      else if GetI32(d, "date").Some? then GetI32(d, "date")
      else GetI32(d, "timestamp"))
  {
    var read := (s: IntSource) => ReadInt(d, s);
    assert GetDateTime(d, "timestamp").Some? ==> read(DateSources[0]) == Some(TruncDiv(GetDateTime(d, "timestamp").value, 1000));
    assert GetDateTime(d, "timestamp").None? ==> read(DateSources[0]).None?;
    assert GetDateTime(d, "date").Some? ==> read(DateSources[1]) == Some(TruncDiv(GetDateTime(d, "date").value, 1000));
    assert GetDateTime(d, "date").None? ==> read(DateSources[1]).None?;
    assert read(DateSources[2]) == GetI64(d, "date") && read(DateSources[3]) == GetI64(d, "timestamp");
    assert read(DateSources[4]) == GetI32(d, "date") && read(DateSources[5]) == GetI32(d, "timestamp");
    FirstSomeSix(read, DateSources);
  }

  /** A legacy message as the parser builds it. */
  datatype MongoMessage = MongoMessage(
    messageId: int, chatId: int, userId: Option<int>, text: string, date: int, messageType: string)

  /**
    `parse_mongo_document`: fails exactly when no message id, chat id or
    date can be read; the sender defaults to none, the text to "" and the
    kind to "0".
   */
  function ParseMongoDocument(d: Document): (r: Result<MongoMessage>)
    ensures r.Ok? <==> MessageIdOf(d).Some? && ChatIdOf(d).Some? && DateOf(d).Some?
    ensures r.Ok? ==> r.value.messageId == MessageIdOf(d).value && r.value.chatId == ChatIdOf(d).value
                      && r.value.date == DateOf(d).value
    ensures r.Ok? ==> r.value.userId == UserIdOf(d)
    ensures r.Ok? ==> r.value.text == TextOf(d).GetOr("") && r.value.messageType == TypeTextOf(d).GetOr("0")
  {
    match MessageIdOf(d)
    case None => Err("Missing message_id or msg_ctx.message_id")
    case Some(messageId) =>
      match ChatIdOf(d)
      case None => Err("Missing group_id/chat_id")
      case Some(chatId) =>
        match DateOf(d)
        case None => Err("Missing date/timestamp")
        case Some(date) =>
          Ok(MongoMessage(messageId, chatId, UserIdOf(d), TextOf(d).GetOr(""), date, TypeTextOf(d).GetOr("0")))
  }

  // ---------------------------------------------------------------------
  // Conversion to index records
  // ---------------------------------------------------------------------

  /** The index record the migration writes; its kind is free text. */
  datatype EsMessage = EsMessage(
    messageId: int, chatId: int, userId: Option<int>, text: string, date: int, messageType: string)

  /** Dates above this many seconds (beyond year 2100) are taken to be milliseconds. */
  const MILLIS_THRESHOLD: int := 4_000_000_000

  /**
    `From<MongoMessage> for EsMessage`: the date is divided by 1000 exactly
    when it exceeds the threshold; ids, sender and text are copied and the
    kind is always "text".
   */
  function FromMongo(m: MongoMessage): (e: EsMessage)
    ensures m.date > MILLIS_THRESHOLD ==> e.date * 1000 <= m.date < e.date * 1000 + 1000
    ensures m.date <= MILLIS_THRESHOLD ==> e.date == m.date
    ensures e.messageId == m.messageId && e.chatId == m.chatId && e.userId == m.userId && e.text == m.text
    ensures e.messageType == TypeName(Text)
  {
    var date := if m.date > MILLIS_THRESHOLD then TruncDiv(m.date, 1000) else m.date;
    EsMessage(m.messageId, m.chatId, m.userId, m.text, date, "text")
  }

  /** A millisecond timestamp is brought back to the second it falls in. */
  lemma MillisBecomeSeconds(m: MongoMessage, seconds: int, rest: int)
    requires 0 <= rest < 1000 && m.date == seconds * 1000 + rest
    requires m.date > MILLIS_THRESHOLD
    ensures FromMongo(m).date == seconds
  {
  }

  /** The document serde writes for an index record; a missing sender is written as null. */
  function EsDoc(e: EsMessage): (doc: Doc)
    ensures Lookup(doc, "user_id") == Some(if e.userId.Some? then JInt(e.userId.value) else JNull)
  {
    var doc := [("message_id", JInt(e.messageId)), ("chat_id", JInt(e.chatId)),
      ("user_id", if e.userId.Some? then JInt(e.userId.value) else JNull),
      ("text", JStr(e.text)), ("date", JInt(e.date)), ("message_type", JStr(e.messageType))];
    LookupAt(doc, "user_id", 2);
    doc
  }

  function EsItems(msgs: seq<EsMessage>): (items: seq<BulkItem>)
    ensures |items| == |msgs|
    ensures forall i :: 0 <= i < |msgs| ==> items[i] == BulkItem(msgs[i].chatId, msgs[i].messageId, EsDoc(msgs[i]))
  {
    seq(|msgs|, i requires 0 <= i < |msgs| => BulkItem(msgs[i].chatId, msgs[i].messageId, EsDoc(msgs[i])))
  }

  // ---------------------------------------------------------------------
  // Bulk write
  // ---------------------------------------------------------------------

  /** What one `bulk_index` call sent (None: no request) and returned. */
  datatype BulkCall = BulkCall(request: Option<seq<BulkLine>>, result: Result<nat>)

  /**
    `bulk_index`: an empty batch returns 0 without a request; otherwise one
    request carrying, for each message in order, an action with its document
    id and then its document, and the reply is read by `Accepted`.
   */
  function BulkIndex(msgs: seq<EsMessage>, reply: BulkReply): (r: BulkCall)
    requires ReplyFits(reply, |msgs|)
    ensures |msgs| == 0 ==> r == BulkCall(None, Ok(0))
    ensures |msgs| > 0 ==> r.request.Some? && |r.request.value| == 2 * |msgs|
    ensures |msgs| > 0 ==> forall i :: 0 <= i < |msgs| ==>
      r.request.value[2 * i] == Action(DocId(msgs[i].chatId, msgs[i].messageId))
      && r.request.value[2 * i + 1] == Source(EsDoc(msgs[i]))
    ensures |msgs| > 0 ==> r.request == Some(Body(EsItems(msgs))) && r.result == Accepted(|msgs|, reply)
    ensures r.result.Ok? ==> r.result.value <= |msgs|
  {
    if |msgs| == 0 then BulkCall(None, Ok(0))
    else BulkCall(Some(Body(EsItems(msgs))), Accepted(|msgs|, reply))
  }

  /** Scenario: five messages, two reported failed, three accepted. */
  lemma BulkPartialFailure(msgs: seq<EsMessage>)
    requires |msgs| == 5
    ensures BulkIndex(msgs, Replied(200, Some(BulkReplyBody(Some(true), Some([false, true, false, true, false]))))).result == Ok(3)
  {
    var flags := [false, true, false, true, false];
    assert CountTrue(flags) == 2 by {
      assert flags[1..] == [true, false, true, false];
      assert flags[2..] == [false, true, false];
      assert flags[3..] == [true, false];
      assert flags[4..] == [false];
    }
  }

  // ---------------------------------------------------------------------
  // Watermarks
  // ---------------------------------------------------------------------

  /** One aggregation bucket: its `key` and its `earliest_message.value`, when they read as integers. */
  datatype Bucket = Bucket(key: Option<int>, earliest: Option<int>)

  /** The aggregation reply body: `aggregations.groups.buckets`, when it is an array. */
  datatype AggBody = AggBody(buckets: Option<seq<Bucket>>)

  datatype AggReply = AggSendFailed | AggReplied(status: int, body: Option<AggBody>)

  /** A group already present in the index and its smallest stored message id. */
  datatype Watermark = Watermark(chatId: int, earliest: int)

  /** The buckets that carry both a key and a minimum, in order. */
  function CompleteBuckets(buckets: seq<Bucket>): (ws: seq<Watermark>)
    ensures |ws| <= |buckets|
    ensures forall w :: w in ws ==> Bucket(Some(w.chatId), Some(w.earliest)) in buckets
    ensures forall b :: b in buckets && b.key.Some? && b.earliest.Some? ==>
      Watermark(b.key.value, b.earliest.value) in ws
  {
    if |buckets| == 0 then []
    else
      var b := buckets[0];
      var rest := CompleteBuckets(buckets[1..]);
      assert forall x :: x in buckets[1..] ==> x in buckets;
      if b.key.Some? && b.earliest.Some? then [Watermark(b.key.value, b.earliest.value)] + rest else rest
  }

  /**
    `get_groups_with_earliest_messages`: a 404 (no index yet) yields no
    groups, any other non-2xx status or unreadable body is an error, and a
    reply without aggregations yields no groups.
   */
  function ResolveWatermarks(reply: AggReply): (r: Result<seq<Watermark>>)
    ensures reply.AggSendFailed? ==> r.Err?
    ensures reply.AggReplied? && reply.status == 404 ==> r == Ok([])
    ensures reply.AggReplied? && reply.status != 404 && !IsSuccess(reply.status) ==> r.Err?
    ensures reply.AggReplied? && IsSuccess(reply.status) ==>
      (r.Ok? <==> reply.body.Some?)
    ensures reply.AggReplied? && IsSuccess(reply.status) && reply.body.Some? && reply.body.value.buckets.None? ==>
      r == Ok([])
    ensures reply.AggReplied? && IsSuccess(reply.status) && reply.body.Some? && reply.body.value.buckets.Some? ==>
      r == Ok(CompleteBuckets(reply.body.value.buckets.value))
  {
    match reply
    case AggSendFailed => Err("aggregation request failed")
    case AggReplied(status, body) =>
      if status == 404 then Ok([])
      else if !IsSuccess(status) then Err("Failed to query ES groups")
      else if body.None? then Err("unreadable aggregation response")
      else if body.value.buckets.None? then Ok([])
      else Ok(CompleteBuckets(body.value.buckets.value))
  }

  // ---------------------------------------------------------------------
  // The per-group batch loop
  // ---------------------------------------------------------------------

  datatype Settings = Settings(batchSize: nat, dryRun: bool)

  /**
    The size every batch is flushed at: the least batch length, one message
    or more, at which `len >= batch_size` holds.
   */
  function Cap(s: Settings): (c: nat)
    ensures c >= 1 && c >= s.batchSize
    ensures s.batchSize >= 1 ==> c == s.batchSize
    ensures s.batchSize == 0 ==> c == 1
  {
    if s.batchSize == 0 then 1 else s.batchSize
  }

  /** One result of the legacy cursor. */
  datatype CursorItem = Fetched(doc: Document) | FetchFailed

  /** The index's answer to a bulk request, as a function of the batch sent. */
  type Store = seq<EsMessage> -> BulkReply

  ghost predicate HonestStore(store: Store)
  {
    forall batch :: ReplyFits(store(batch), |batch|)
  }

  /** A reply that accepts every message of the request. */
  predicate Clean(reply: BulkReply)
  {
    reply.Replied? && IsSuccess(reply.status) && reply.body.Some? && FailedItems(reply.body.value) == 0
  }

  /** An index that accepts every bulk request in full. */
  ghost predicate CleanStore(store: Store)
  {
    forall batch :: Clean(store(batch))
  }

  /** The loop's locals: the open batch, the counters, and what was flushed and sent. */
  datatype GroupState = GroupState(
    batch: seq<EsMessage>,
    migrated: nat,
    errors: nat,
    flushed: seq<seq<EsMessage>>,
    requests: seq<seq<BulkLine>>)

  const Fresh: GroupState := GroupState([], 0, 0, [], [])

  /** The record a cursor result contributes, if it was fetched and parses. */
  function Record(item: CursorItem): Option<EsMessage>
  {
    match item
    case FetchFailed => None
    case Fetched(d) =>
      match ParseMongoDocument(d)
      case Ok(m) => Some(FromMongo(m))
      case Err(_) => None
  }

  /** The cursor results as the loop sees them: a record, or a failure. */
  function Records(items: seq<CursorItem>): (rs: seq<Option<EsMessage>>)
    ensures |rs| == |items|
    ensures forall i :: 0 <= i < |items| ==> rs[i] == Record(items[i])
  {
    seq(|items|, i requires 0 <= i < |items| => Record(items[i]))
  }

  /** The records among the loop's inputs, in cursor order. */
  function Parsed(rs: seq<Option<EsMessage>>): seq<EsMessage>
  {
    if |rs| == 0 then []
    else Parsed(rs[..|rs| - 1]) + (if rs[|rs| - 1].Some? then [rs[|rs| - 1].value] else [])
  }

  /** The loop's inputs that failed to fetch or parse. */
  function Failures(rs: seq<Option<EsMessage>>): nat
  {
    if |rs| == 0 then 0
    else Failures(rs[..|rs| - 1]) + (if rs[|rs| - 1].None? then 1 else 0)
  }

  /**
    What writing one batch adds to the counters, as (migrated, errors): a dry
    run counts the whole batch as migrated; otherwise an accepted write adds
    the number of messages the index took, and a rejected one counts the
    whole batch as errors. An empty batch is never sent and adds nothing.
   */
  function BatchOutcome(batch: seq<EsMessage>, s: Settings, store: Store): (o: (nat, nat))
    requires HonestStore(store)
    ensures o.0 + o.1 <= |batch|
  {
    if s.dryRun then (|batch|, 0)
    else if |batch| == 0 then (0, 0)
    else
      match Accepted(|batch|, store(batch))
      case Ok(c) => (c, 0)
      case Err(_) => (0, |batch|)
  }

  /** The counts a sequence of flushed batches adds up to. */
  function Tally(bs: seq<seq<EsMessage>>, s: Settings, store: Store): (t: (nat, nat))
    requires HonestStore(store)
    ensures t.0 + t.1 <= |Flatten(bs)|
  {
    if |bs| == 0 then (0, 0)
    else
      var o, rest := BatchOutcome(bs[0], s, store), Tally(bs[1..], s, store);
      (o.0 + rest.0, o.1 + rest.1)
  }

  /** The tally of batches flushed one after another is the sum of the tallies. */
  lemma {:induction false} TallyAppend(a: seq<seq<EsMessage>>, b: seq<seq<EsMessage>>, s: Settings, store: Store)
    requires HonestStore(store)
    ensures Tally(a + b, s, store).0 == Tally(a, s, store).0 + Tally(b, s, store).0
    ensures Tally(a + b, s, store).1 == Tally(a, s, store).1 + Tally(b, s, store).1
  {
    if |a| > 0 {
      assert (a + b)[0] == a[0] && (a + b)[1..] == a[1..] + b;
      TallyAppend(a[1..], b, s, store);
    } else {
      assert a + b == b;
    }
  }

  /**
    Writes (or, in a dry run, only counts) the open batch: a dry run counts
    the whole batch as migrated, an accepted write counts the messages the
    index took, a rejected write counts the whole batch as errors, and the
    batch is emptied either way.
   */
  function Flush(st: GroupState, s: Settings, store: Store): (r: GroupState)
    requires HonestStore(store)
    ensures r.batch == [] && r.flushed == st.flushed + [st.batch]
    ensures s.dryRun ==> r.requests == st.requests && r.migrated == st.migrated + |st.batch| && r.errors == st.errors
    ensures !s.dryRun && |st.batch| > 0 ==> r.requests == st.requests + [Body(EsItems(st.batch))]
    ensures !s.dryRun && |st.batch| == 0 ==> r.requests == st.requests && r.migrated == st.migrated && r.errors == st.errors
    ensures !s.dryRun && |st.batch| > 0 && Accepted(|st.batch|, store(st.batch)).Ok? ==>
      r.migrated == st.migrated + Accepted(|st.batch|, store(st.batch)).value && r.errors == st.errors
    ensures !s.dryRun && |st.batch| > 0 && Accepted(|st.batch|, store(st.batch)).Err? ==>
      r.migrated == st.migrated && r.errors == st.errors + |st.batch|
    ensures r.migrated + r.errors <= st.migrated + st.errors + |st.batch|
    ensures !s.dryRun && CleanStore(store) ==> r.migrated == st.migrated + |st.batch| && r.errors == st.errors
  {
    if s.dryRun then
      st.(batch := [], migrated := st.migrated + |st.batch|, flushed := st.flushed + [st.batch])
    else
      var call := BulkIndex(st.batch, store(st.batch));
      var sent := st.(batch := [], flushed := st.flushed + [st.batch],
                      requests := st.requests + (if call.request.Some? then [call.request.value] else []));
      match call.result
      case Ok(count) => sent.(migrated := st.migrated + count)
      case Err(_) => sent.(errors := st.errors + |st.batch|)
  }

  /**
    One cursor result: a fetch or parse failure adds one error; a record is
    appended to the batch, which is flushed once its length reaches the
    batch size.
   */
  function Step(st: GroupState, rec: Option<EsMessage>, s: Settings, store: Store): GroupState
    requires HonestStore(store)
  {
    match rec
    case None => st.(errors := st.errors + 1)
    case Some(e) =>
      var grown := st.(batch := st.batch + [e]);
      if |grown.batch| >= s.batchSize then Flush(grown, s, store) else grown
  }

  /** The `while let Some(result) = cursor.next()` loop. */
  function Fold(rs: seq<Option<EsMessage>>, st: GroupState, s: Settings, store: Store): GroupState
    requires HonestStore(store)
  {
    if |rs| == 0 then st else Step(Fold(rs[..|rs| - 1], st, s, store), rs[|rs| - 1], s, store)
  }

  /**
    What holds of the loop's locals after `n` cursor results, of which the
    parsable ones gave the records `parsed` and `fails` failed.
   */
  ghost predicate Inv(st: GroupState, parsed: seq<EsMessage>, fails: nat, n: nat, s: Settings, clean: bool)
  {
    && Flatten(st.flushed) + st.batch == parsed
    && |st.batch| < Cap(s)
    && (forall i :: 0 <= i < |st.flushed| ==> |st.flushed[i]| == Cap(s))
    && st.migrated + st.errors + |st.batch| <= n
    && (s.dryRun ==> st.requests == [])
    && (s.dryRun || clean ==> st.migrated == |Flatten(st.flushed)| && st.errors == fails)
    && (!s.dryRun ==> RequestsMatch(st.requests, st.flushed))
  }

  /** Each request is the bulk body of the batch flushed at the same position. */
  ghost predicate RequestsMatch(requests: seq<seq<BulkLine>>, flushed: seq<seq<EsMessage>>)
  {
    |requests| == |flushed| && forall i :: 0 <= i < |flushed| ==> requests[i] == Body(EsItems(flushed[i]))
  }

  lemma ParsedSnoc(done: seq<Option<EsMessage>>, x: Option<EsMessage>)
    ensures Parsed(done + [x]) == Parsed(done) + (if x.Some? then [x.value] else [])
    ensures Failures(done + [x]) == Failures(done) + (if x.None? then 1 else 0)
  {
    assert (done + [x])[..|done|] == done;
  }

  /**
    What a flush of the non-empty batch of `st` may leave behind, as the
    contract of `Flush` describes it; `clean` says that the write, if any,
    was accepted in full.
   */
  ghost predicate FlushedFrom(st: GroupState, r: GroupState, s: Settings, clean: bool)
  {
    && r.batch == [] && r.flushed == st.flushed + [st.batch]
    && (s.dryRun ==> r.requests == st.requests)
    && (!s.dryRun ==> r.requests == st.requests + [Body(EsItems(st.batch))])
    && (s.dryRun || clean ==> r.migrated == st.migrated + |st.batch| && r.errors == st.errors)
    && r.migrated + r.errors <= st.migrated + st.errors + |st.batch|
  }

  /** Flushing appends the batch to the flushed ones and its bulk body to the requests. */
  lemma FlushAppends(st: GroupState, r: GroupState, s: Settings, clean: bool)
    requires FlushedFrom(st, r, s, clean)
    requires forall i :: 0 <= i < |st.flushed| ==> 0 < |st.flushed[i]| == Cap(s)
    requires !s.dryRun ==> RequestsMatch(st.requests, st.flushed)
    ensures Flatten(r.flushed) == Flatten(st.flushed) + st.batch
    ensures forall i :: 0 <= i < |st.flushed| ==> r.flushed[i] == st.flushed[i]
    ensures forall i :: 0 <= i < |st.flushed| ==> 0 < |r.flushed[i]| == Cap(s)
    ensures !s.dryRun ==> RequestsMatch(r.requests, r.flushed)
  {
    FlattenAppend(st.flushed, st.batch);
    if !s.dryRun {
      forall i | 0 <= i < |r.flushed|
        ensures r.requests[i] == Body(EsItems(r.flushed[i]))
      {
        if i < |st.flushed| {
          assert r.flushed[i] == st.flushed[i] && r.requests[i] == st.requests[i];
        }
      }
    }
  }

  /** The invariant is restored by flushing a full batch. */
  lemma FlushFull(grown: GroupState, r: GroupState, parsed: seq<EsMessage>, fails: nat, n: nat, s: Settings, clean: bool)
    requires Flatten(grown.flushed) + grown.batch == parsed
    requires |grown.batch| == Cap(s)
    requires forall i :: 0 <= i < |grown.flushed| ==> |grown.flushed[i]| == Cap(s)
    requires grown.migrated + grown.errors + |grown.batch| <= n
    requires s.dryRun ==> grown.requests == []
    requires s.dryRun || clean ==> grown.migrated == |Flatten(grown.flushed)| && grown.errors == fails
    requires !s.dryRun ==> RequestsMatch(grown.requests, grown.flushed)
    requires FlushedFrom(grown, r, s, clean)
    ensures Inv(r, parsed, fails, n, s, clean)
  {
    FlushAppends(grown, r, s, clean);
    forall i | 0 <= i < |r.flushed|
      ensures |r.flushed[i]| == Cap(s)
    {
      if i == |grown.flushed| {
        assert r.flushed[i] == grown.batch;
      }
    }
  }

  /** A failed cursor result adds one error and keeps the invariant. */
  lemma FailKeepsInv(st: GroupState, parsed: seq<EsMessage>, fails: nat, n: nat, s: Settings, clean: bool)
    requires Inv(st, parsed, fails, n, s, clean)
    ensures Inv(st.(errors := st.errors + 1), parsed, fails + 1, n + 1, s, clean)
  {
  }

  /** A record that leaves the batch short of the cap keeps the invariant. */
  lemma GrowKeepsInv(st: GroupState, e: EsMessage, parsed: seq<EsMessage>, fails: nat, n: nat, s: Settings, clean: bool)
    requires Inv(st, parsed, fails, n, s, clean)
    requires |st.batch| + 1 < Cap(s)
    ensures Inv(st.(batch := st.batch + [e]), parsed + [e], fails, n + 1, s, clean)
  {
    assert Flatten(st.flushed) + (st.batch + [e]) == Flatten(st.flushed) + st.batch + [e];
  }

  lemma StepKeepsInv(st: GroupState, done: seq<Option<EsMessage>>, x: Option<EsMessage>, s: Settings, store: Store)
    requires HonestStore(store)
    requires Inv(st, Parsed(done), Failures(done), |done|, s, CleanStore(store))
    ensures Inv(Step(st, x, s, store), Parsed(done + [x]), Failures(done + [x]), |done + [x]|, s, CleanStore(store))
  {
    ParsedSnoc(done, x);
    var clean := CleanStore(store);
    if x.None? {
      FailKeepsInv(st, Parsed(done), Failures(done), |done|, s, clean);
    } else {
      var parsed, fails, n := Parsed(done + [x]), Failures(done + [x]), |done + [x]|;
      var grown := st.(batch := st.batch + [x.value]);
      if |grown.batch| >= s.batchSize {
        assert Flatten(grown.flushed) + grown.batch == parsed;
        var r := Flush(grown, s, store);
        assert FlushedFrom(grown, r, s, clean);
        FlushFull(grown, r, parsed, fails, n, s, clean);
      } else {
        GrowKeepsInv(st, x.value, Parsed(done), Failures(done), |done|, s, clean);
      }
    }
  }

  /** The loop, started from fresh locals, keeps the invariant over any cursor. */
  lemma {:induction false} FoldKeepsInv(rs: seq<Option<EsMessage>>, s: Settings, store: Store)
    requires HonestStore(store)
    ensures Inv(Fold(rs, Fresh, s, store), Parsed(rs), Failures(rs), |rs|, s, CleanStore(store))
  {
    if |rs| > 0 {
      var done, x := rs[..|rs| - 1], rs[|rs| - 1];
      FoldKeepsInv(done, s, store);
      StepKeepsInv(Fold(done, Fresh, s, store), done, x, s, store);
      assert done + [x] == rs;
    }
  }

  /**
    The counters agree with the batches flushed so far: migrated is what
    their writes were counted as, and errors are the `fails` fetch or parse
    failures plus the messages of every rejected write.
   */
  ghost predicate Counted(st: GroupState, fails: nat, s: Settings, store: Store)
    requires HonestStore(store)
  {
    st.migrated == Tally(st.flushed, s, store).0 && st.errors == fails + Tally(st.flushed, s, store).1
  }

  /** A flush adds the outcome of its batch to the counters. */
  lemma FlushKeepsCounted(st: GroupState, fails: nat, s: Settings, store: Store)
    requires HonestStore(store) && Counted(st, fails, s, store)
    ensures Counted(Flush(st, s, store), fails, s, store)
  {
    TallyAppend(st.flushed, [st.batch], s, store);
    assert [st.batch][1..] == [];
  }

  /** Over any cursor, the counters are the failures plus the outcomes of the flushed batches. */
  lemma {:induction false} FoldCounted(rs: seq<Option<EsMessage>>, s: Settings, store: Store)
    requires HonestStore(store)
    ensures Counted(Fold(rs, Fresh, s, store), Failures(rs), s, store)
  {
    if |rs| > 0 {
      var done, x := rs[..|rs| - 1], rs[|rs| - 1];
      FoldCounted(done, s, store);
      ParsedSnoc(done, x);
      assert done + [x] == rs;
      var st := Fold(done, Fresh, s, store);
      if x.Some? {
        var grown := st.(batch := st.batch + [x.value]);
        if |grown.batch| >= s.batchSize {
          FlushKeepsCounted(grown, Failures(done), s, store);
        }
      }
    }
  }

  lemma {:induction false} ParsedPlusFailures(rs: seq<Option<EsMessage>>)
    ensures |Parsed(rs)| + Failures(rs) == |rs|
  {
    if |rs| > 0 {
      ParsedPlusFailures(rs[..|rs| - 1]);
    }
  }

  /** `s` cut into consecutive batches of `cap`, the last one possibly shorter. */
  function Chunks<T>(s: seq<T>, cap: nat): (r: seq<seq<T>>)
    requires cap >= 1
    ensures Flatten(r) == s
    ensures forall i :: 0 <= i < |r| ==> 0 < |r[i]| <= cap
    decreases |s|
  {
    if |s| == 0 then []
    else if |s| <= cap then [s]
    else
      var rest := Chunks(s[cap..], cap);
      assert s == s[..cap] + s[cap..];
      [s[..cap]] + rest
  }

  /** Batches of exactly `cap`, then one non-empty batch of at most `cap`. */
  ghost predicate FullThenTail<T>(bs: seq<seq<T>>, cap: nat)
  {
    && (forall i :: 0 <= i < |bs| ==> 0 < |bs[i]| <= cap)
    && (forall i :: 0 <= i < |bs| - 1 ==> |bs[i]| == cap)
  }

  /** Cutting is the only way to arrive at full batches followed by a tail. */
  lemma {:induction false} FullThenTailIsChunks<T>(bs: seq<seq<T>>, cap: nat)
    requires cap >= 1 && FullThenTail(bs, cap)
    ensures bs == Chunks(Flatten(bs), cap)
  {
    if |bs| == 1 {
      assert bs[1..] == [];
      assert Flatten(bs) == bs[0] + Flatten(bs[1..]);
      assert Flatten(bs) == bs[0];
    } else if |bs| > 1 {
      var s := Flatten(bs);
      assert s == bs[0] + Flatten(bs[1..]);
      assert Flatten(bs[1..]) == bs[1..][0] + Flatten(bs[1..][1..]);
      assert |bs[1..][0]| > 0;
      assert FullThenTail(bs[1..], cap);
      FullThenTailIsChunks(bs[1..], cap);
      assert s[..cap] == bs[0] && s[cap..] == Flatten(bs[1..]);
      assert bs == [bs[0]] + bs[1..];
    }
  }

  /** Cursor results read for one group: its count, then (if non-zero) its cursor. */
  datatype GroupSource = GroupSource(count: Result<nat>, cursor: Result<seq<CursorItem>>)

  /** What one group's migration did. */
  datatype GroupReport = GroupReport(
    group: Watermark, migrated: nat, errors: nat, flushed: seq<seq<EsMessage>>, requests: seq<seq<BulkLine>>)

  /**
    One iteration of `main`'s loop over groups: a zero count skips the group
    without reading the cursor; otherwise every cursor result is consumed,
    the batch is flushed whenever it fills, and a non-empty remainder is
    flushed at the end. A failed count or cursor query is an error.
   */
  function RunGroup(g: Watermark, src: GroupSource, s: Settings, store: Store): (r: Result<GroupReport>)
    requires HonestStore(store)
    ensures r.Ok? <==> src.count.Ok? && (src.count.value == 0 || src.cursor.Ok?)
    ensures r.Ok? ==> r.value.group == g
    ensures r.Ok? && src.count.value == 0 ==> r.value == GroupReport(g, 0, 0, [], [])
    ensures r.Ok? && src.count.value > 0 ==>
      var rs := Records(src.cursor.value);
      && r.value.flushed == Chunks(Parsed(rs), Cap(s))
      && r.value.migrated + r.value.errors <= |rs|
      && (s.dryRun ==> r.value.requests == [])
      && (s.dryRun || CleanStore(store) ==> r.value.migrated == |Parsed(rs)| && r.value.errors == Failures(rs))
      && (!s.dryRun ==> RequestsMatch(r.value.requests, r.value.flushed))
      && r.value.migrated == Tally(r.value.flushed, s, store).0
      && r.value.errors == Failures(rs) + Tally(r.value.flushed, s, store).1
  {
    if src.count.Err? then Err(src.count.message)
    else if src.count.value == 0 then Ok(GroupReport(g, 0, 0, [], []))
    else if src.cursor.Err? then Err(src.cursor.message)
    else
      var rs := Records(src.cursor.value);
      FoldKeepsInv(rs, s, store);
      var st := Fold(rs, Fresh, s, store);
      var fin := if |st.batch| > 0 then Flush(st, s, store) else st;
      assert |st.batch| > 0 ==> FlushedFrom(st, fin, s, CleanStore(store));
      FoldCounted(rs, s, store);
      assert Counted(fin, Failures(rs), s, store) by {
        if |st.batch| > 0 {
          FlushKeepsCounted(st, Failures(rs), s, store);
        }
      }
      FinishChunks(st, fin, rs, s, CleanStore(store));
      Ok(GroupReport(g, fin.migrated, fin.errors, fin.flushed, fin.requests))
  }

  /** After the loop, the final flush of a non-empty remainder leaves exactly the cut batches. */
  lemma FinishChunks(st: GroupState, fin: GroupState, rs: seq<Option<EsMessage>>, s: Settings, clean: bool)
    requires Inv(st, Parsed(rs), Failures(rs), |rs|, s, clean)
    requires |st.batch| == 0 ==> fin == st
    requires |st.batch| > 0 ==> FlushedFrom(st, fin, s, clean)
    ensures fin.flushed == Chunks(Parsed(rs), Cap(s))
    ensures fin.migrated + fin.errors <= |rs|
    ensures s.dryRun ==> fin.requests == []
    ensures s.dryRun || clean ==> fin.migrated == |Parsed(rs)| && fin.errors == Failures(rs)
    ensures !s.dryRun ==> RequestsMatch(fin.requests, fin.flushed)
  {
    if |st.batch| > 0 {
      FlushAppends(st, fin, s, clean);
      forall i | 0 <= i < |fin.flushed|
        ensures 0 < |fin.flushed[i]| <= Cap(s) && (i < |fin.flushed| - 1 ==> |fin.flushed[i]| == Cap(s))
      {
        if i == |st.flushed| {
          assert fin.flushed[i] == st.batch;
        }
      }
    } else {
      assert fin.flushed == st.flushed;
    }
    assert Flatten(fin.flushed) == Parsed(rs);
    assert FullThenTail(fin.flushed, Cap(s));
    FullThenTailIsChunks(fin.flushed, Cap(s));
  }

  /** An index that refuses every bulk request, or answers it with an error status. */
  ghost predicate RejectingStore(store: Store)
  {
    forall batch :: |batch| > 0 ==> !(store(batch).Replied? && IsSuccess(store(batch).status) && store(batch).body.Some?)
  }

  /** Rejected writes count their batches, non-empty ones, as errors and nothing as migrated. */
  lemma {:induction false} TallyRejected(bs: seq<seq<EsMessage>>, s: Settings, store: Store)
    requires HonestStore(store) && RejectingStore(store) && !s.dryRun
    requires forall i :: 0 <= i < |bs| ==> |bs[i]| > 0
    ensures Tally(bs, s, store) == (0, |Flatten(bs)|)
  {
    if |bs| > 0 {
      TallyRejected(bs[1..], s, store);
      assert BatchOutcome(bs[0], s, store) == (0, |bs[0]|);
      assert Flatten(bs) == bs[0] + Flatten(bs[1..]);
    }
  }

  /**
    With an index that rejects every write, a group migrates nothing and
    every cursor result ends up as an error: the failures one each, the
    parsed records with the batch they were sent in.
   */
  lemma RunGroupRejected(g: Watermark, src: GroupSource, batchSize: nat, store: Store)
    requires HonestStore(store) && RejectingStore(store)
    ensures var r := RunGroup(g, src, Settings(batchSize, false), store);
      r.Ok? && src.count.value > 0 ==> r.value.migrated == 0 && r.value.errors == |src.cursor.value|
  {
    var s := Settings(batchSize, false);
    var r := RunGroup(g, src, s, store);
    if r.Ok? && src.count.value > 0 {
      var rs := Records(src.cursor.value);
      TallyRejected(r.value.flushed, s, store);
      ParsedPlusFailures(rs);
    }
  }

  // ---------------------------------------------------------------------
  // What the per-group query selects
  // ---------------------------------------------------------------------

  /**
    A numeric field as a Mongo query compares it: by value, whatever its
    numeric type, so an Int32, an Int64 and a Double all take part.
   */
  function NumField(d: Document, key: string): (r: Option<real>)
    ensures r.Some? <==> key in d && (d[key].Int64? || d[key].Int32? || d[key].Double?)
    ensures GetI64(d, key).Some? ==> r == Some(GetI64(d, key).value as real)
    ensures GetI32(d, key).Some? ==> r == Some(GetI32(d, key).value as real)
    ensures key in d && d[key].Double? ==> r == Some(d[key].x)
  {
    if key in d && (d[key].Int64? || d[key].Int32?) then Some(d[key].i as real)
    else if key in d && d[key].Double? then Some(d[key].x)
    else None
  }

  /**
    The per-group filter as written: `group_id` equal to the group,
    `msg_ctx.message_id` below its watermark, and `msg_type` equal to 1,
    each compared by numeric value.
   */
  predicate Selected(d: Document, g: Watermark)
  {
    && NumField(d, "group_id") == Some(g.chatId as real)
    && GetDocument(d, "msg_ctx").Some?
    && NumField(GetDocument(d, "msg_ctx").value, "message_id").Some?
    && NumField(GetDocument(d, "msg_ctx").value, "message_id").value < g.earliest as real
    && NumField(d, "msg_type") == Some(1.0)
  }

  /** A legacy document whose `msg_ctx.message_id` is a double below the watermark and whose top-level id is not. */
  const DoubleIdDoc: Document := map[
    "group_id" := Int64(7),
    "msg_ctx" := Embedded(map["message_id" := Double(999.0)]),
    "message_id" := Int64(5000),
    "msg_type" := Int32(1),
    "date" := Int64(1_700_000_000)]

  /** The filter as written selects that document: 999.0 compares below 1000. */
  lemma DoubleIdDocSelected()
    ensures Selected(DoubleIdDoc, Watermark(7, 1000))
  {
    assert GetDocument(DoubleIdDoc, "msg_ctx") == Some(map["message_id" := Double(999.0)]);
  }

  /** The parser rejects the double and reads the top-level id instead. */
  lemma DoubleIdDocMessageId()
    ensures MessageIdOf(DoubleIdDoc) == Some(5000)
  {
    var ctx := map["message_id" := Double(999.0)];
    assert GetDocument(DoubleIdDoc, "msg_ctx") == Some(ctx);
    assert GetI64(ctx, "message_id").None? && GetI32(ctx, "message_id").None?;
    MessageIdOrder(DoubleIdDoc);
  }

  /** The parser reads the document's group and date. */
  lemma DoubleIdDocChatAndDate()
    ensures ChatIdOf(DoubleIdDoc) == Some(7)
    ensures DateOf(DoubleIdDoc) == Some(1_700_000_000)
  {
    ChatIdOrder(DoubleIdDoc);
    assert "timestamp" !in DoubleIdDoc;
    DateOrder(DoubleIdDoc);
  }

  /**
    The filter as written selects a document the parser reads past: a double
    `msg_ctx.message_id` matches `$lt`, but `get_i64` and `get_i32` both
    reject it, so the parser falls back to the top-level id, which is above
    the watermark.
   */
  lemma SelectedAsWrittenEscapesWatermark()
    ensures Selected(DoubleIdDoc, Watermark(7, 1000))
    ensures ParseMongoDocument(DoubleIdDoc).Ok?
    ensures ParseMongoDocument(DoubleIdDoc).value.messageId == 5000 >= 1000
  {
    DoubleIdDocSelected();
    DoubleIdDocMessageId();
    DoubleIdDocChatAndDate();
  }

  /** One parsable cursor result is cut into a single batch holding its record. */
  lemma SingleRecordChunks(d: Document, s: Settings)
    requires ParseMongoDocument(d).Ok?
    ensures Chunks(Parsed(Records([Fetched(d)])), Cap(s)) == [[FromMongo(ParseMongoDocument(d).value)]]
  {
    var e := FromMongo(ParseMongoDocument(d).value);
    var rs := Records([Fetched(d)]);
    assert rs == [Some(e)];
    assert Parsed(rs) == [e] by {
      assert rs[..0] == [];
    }
    assert Chunks([e], Cap(s)) == [[e]];
  }

  /** A group whose cursor returns one parsable document writes exactly that record, alone. */
  lemma RunGroupSingle(g: Watermark, d: Document, s: Settings, store: Store)
    requires HonestStore(store) && ParseMongoDocument(d).Ok?
    ensures var r := RunGroup(g, GroupSource(Ok(1), Ok([Fetched(d)])), s, store);
      r.Ok? && r.value.flushed == [[FromMongo(ParseMongoDocument(d).value)]]
  {
    SingleRecordChunks(d, s);
  }

  /** The same document, as a group's only cursor result, makes the group write a message above the watermark. */
  lemma RunGroupAsWrittenEscapesWatermark(s: Settings, store: Store)
    requires HonestStore(store)
    ensures var r := RunGroup(Watermark(7, 1000), GroupSource(Ok(1), Ok([Fetched(DoubleIdDoc)])), s, store);
      && Selected(DoubleIdDoc, Watermark(7, 1000))
      && r.Ok? && |r.value.flushed| == 1 && |r.value.flushed[0]| == 1
      && r.value.flushed[0][0].messageId == 5000
  {
    SelectedAsWrittenEscapesWatermark();
    RunGroupSingle(Watermark(7, 1000), DoubleIdDoc, s, store);
  }

  /** `msg_ctx.message_id` is an int or a long, so the id the filter compares is the one the parser reads. */
  predicate CtxIdTyped(d: Document)
  {
    && GetDocument(d, "msg_ctx").Some?
    && var ctx := GetDocument(d, "msg_ctx").value;
       "message_id" in ctx && (ctx["message_id"].Int64? || ctx["message_id"].Int32?)
  }

  /**
    `group_id` is a long, or an int with no long `chat_id` beside it, so the
    group the filter compares is the chat the parser reads.
   */
  predicate GroupIdTyped(d: Document)
  {
    && "group_id" in d
    && (d["group_id"].Int64? || (d["group_id"].Int32? && GetI64(d, "chat_id").None?))
  }

  /** The corrected filter: the as-written one with both `$type` conditions added. */
  predicate SelectedTyped(d: Document, g: Watermark)
  {
    Selected(d, g) && CtxIdTyped(d) && GroupIdTyped(d)
  }

  /** The cursor of a group returns only documents the corrected filter selects. */
  ghost predicate CursorSelected(items: seq<CursorItem>, g: Watermark)
  {
    forall i :: 0 <= i < |items| && items[i].Fetched? ==> SelectedTyped(items[i].doc, g)
  }

  /**
    A document the corrected filter selects parses to a record of the
    group's own chat, strictly below the group's watermark.
   */
  lemma SelectedBelowWatermark(d: Document, g: Watermark)
    requires SelectedTyped(d, g)
    ensures ParseMongoDocument(d).Ok? ==> ParseMongoDocument(d).value.messageId < g.earliest
    ensures ParseMongoDocument(d).Ok? ==> ParseMongoDocument(d).value.chatId == g.chatId
  {
    MessageIdOrder(d);
    ChatIdOrder(d);
  }

  /** A legacy document filed under an int `group_id` that also carries a long `chat_id` of another chat. */
  const ChatIdDoc: Document := map[
    "group_id" := Int32(7),
    "chat_id" := Int64(99),
    "msg_ctx" := Embedded(map["message_id" := Int64(999)]),
    "msg_type" := Int32(1),
    "date" := Int64(1_700_000_000)]

  /** Both filters but the `group_id` type condition select that document. */
  lemma ChatIdDocSelected()
    ensures Selected(ChatIdDoc, Watermark(7, 1000)) && CtxIdTyped(ChatIdDoc) && !GroupIdTyped(ChatIdDoc)
  {
    assert GetDocument(ChatIdDoc, "msg_ctx") == Some(map["message_id" := Int64(999)]);
  }

  /** The parser reads the long `chat_id` before the int `group_id`. */
  lemma ChatIdDocChat()
    ensures ChatIdOf(ChatIdDoc) == Some(99)
  {
    assert GetI64(ChatIdDoc, "group_id").None? && GetI64(ChatIdDoc, "chat_id") == Some(99);
    ChatIdOrder(ChatIdDoc);
  }

  /** The parser reads the embedded id and the date. */
  lemma ChatIdDocIdAndDate()
    ensures MessageIdOf(ChatIdDoc) == Some(999)
    ensures DateOf(ChatIdDoc) == Some(1_700_000_000)
  {
    var ctx := map["message_id" := Int64(999)];
    assert GetDocument(ChatIdDoc, "msg_ctx") == Some(ctx);
    assert GetI64(ctx, "message_id") == Some(999);
    MessageIdOrder(ChatIdDoc);
    assert "timestamp" !in ChatIdDoc;
    DateOrder(ChatIdDoc);
  }

  /**
    The filter as written selects a document the parser files under another
    chat: `group_id` 7 matches by value, but the parser prefers a long
    `chat_id`, 99, over an int `group_id`.
   */
  lemma SelectedAsWrittenMisfilesChat()
    ensures Selected(ChatIdDoc, Watermark(7, 1000)) && CtxIdTyped(ChatIdDoc)
    ensures ParseMongoDocument(ChatIdDoc).Ok?
    ensures ParseMongoDocument(ChatIdDoc).value.chatId == 99 != 7
    ensures ParseMongoDocument(ChatIdDoc).value.messageId == 999
  {
    ChatIdDocSelected();
    ChatIdDocChat();
    ChatIdDocIdAndDate();
  }

  /** That document, as a group's only cursor result, makes group 7's run write a record of chat 99. */
  lemma RunGroupAsWrittenMisfilesChat(s: Settings, store: Store)
    requires HonestStore(store)
    ensures var r := RunGroup(Watermark(7, 1000), GroupSource(Ok(1), Ok([Fetched(ChatIdDoc)])), s, store);
      && Selected(ChatIdDoc, Watermark(7, 1000))
      && r.Ok? && |r.value.flushed| == 1 && |r.value.flushed[0]| == 1
      && r.value.flushed[0][0].chatId == 99
  {
    SelectedAsWrittenMisfilesChat();
    RunGroupSingle(Watermark(7, 1000), ChatIdDoc, s, store);
  }

  /** Every record the loop sees comes from some cursor position. */
  lemma {:induction false} ParsedFrom(rs: seq<Option<EsMessage>>, e: EsMessage)
    requires e in Parsed(rs)
    ensures exists i :: 0 <= i < |rs| && rs[i] == Some(e)
  {
    var pre := rs[..|rs| - 1];
    if e in Parsed(pre) {
      ParsedFrom(pre, e);
      var i :| 0 <= i < |pre| && pre[i] == Some(e);
      assert rs[i] == Some(e);
    } else {
      assert rs[|rs| - 1] == Some(e);
    }
  }

  /**
    A group's migration writes only records of that group's chat, older
    than what the index already holds for it, so the backfill never
    overwrites a live record.
   */
  lemma RunGroupBelowWatermark(g: Watermark, src: GroupSource, s: Settings, store: Store)
    requires HonestStore(store)
    requires src.cursor.Ok? ==> CursorSelected(src.cursor.value, g)
    ensures RunGroup(g, src, s, store).Ok? ==>
      forall e :: e in Flatten(RunGroup(g, src, s, store).value.flushed) ==> e.messageId < g.earliest && e.chatId == g.chatId
  {
    var r := RunGroup(g, src, s, store);
    if r.Ok? && src.count.value > 0 {
      var items := src.cursor.value;
      var rs := Records(items);
      forall e | e in Flatten(r.value.flushed)
        ensures e.messageId < g.earliest && e.chatId == g.chatId
      {
        assert e in Parsed(rs);
        ParsedFrom(rs, e);
        var i :| 0 <= i < |rs| && rs[i] == Some(e);
        assert Record(items[i]) == Some(e);
        SelectedBelowWatermark(items[i].doc, g);
      }
    }
  }

  /**
    The cursor is sorted by `msg_ctx.message_id`; when the records carry
    those ids in that order, the batches are written oldest first.
   */
  lemma {:induction false} ParsedKeepsOrder(rs: seq<Option<EsMessage>>)
    requires forall i, j :: 0 <= i < j < |rs| && rs[i].Some? && rs[j].Some? ==> rs[i].value.messageId <= rs[j].value.messageId
    ensures forall i, j :: 0 <= i < j < |Parsed(rs)| ==> Parsed(rs)[i].messageId <= Parsed(rs)[j].messageId
  {
    if |rs| > 0 {
      var pre, last := rs[..|rs| - 1], rs[|rs| - 1];
      ParsedKeepsOrder(pre);
      if last.Some? {
        var p := Parsed(rs);
        assert p == Parsed(pre) + [last.value];
        forall i | 0 <= i < |Parsed(pre)|
          ensures Parsed(pre)[i].messageId <= last.value.messageId
        {
          ParsedFrom(pre, Parsed(pre)[i]);
        }
      }
    }
  }

  /** Scenario: three records with a batch size of two are written as a pair and then a single. */
  lemma ThreeRecordsTwoBatches(a: EsMessage, b: EsMessage, c: EsMessage)
    ensures Chunks([a, b, c], Cap(Settings(2, false))) == [[a, b], [c]]
  {
    assert [a, b, c][2..] == [c];
    assert [a, b, c][..2] == [a, b];
  }

  /**
    A dry run cuts the same batches as a real run, and when the index
    accepts every write it also predicts the real run's counts.
   */
  lemma DryRunPredictsCleanRun(g: Watermark, src: GroupSource, batchSize: nat, store: Store)
    requires HonestStore(store) && CleanStore(store)
    ensures var dry := RunGroup(g, src, Settings(batchSize, true), store);
            var live := RunGroup(g, src, Settings(batchSize, false), store);
      && (dry.Ok? <==> live.Ok?)
      && (dry.Ok? ==> dry.value.flushed == live.value.flushed && dry.value.migrated == live.value.migrated
                      && dry.value.errors == live.value.errors && dry.value.requests == [])
  {
  }

  // ---------------------------------------------------------------------
  // The whole run
  // ---------------------------------------------------------------------

  /** Runs the groups in order; the first group whose count or query fails aborts the run. */
  function RunGroups(groups: seq<Watermark>, legacy: Watermark -> GroupSource, s: Settings, store: Store)
    : (r: Result<seq<GroupReport>>)
    requires HonestStore(store)
    ensures r.Ok? <==> forall i :: 0 <= i < |groups| ==> RunGroup(groups[i], legacy(groups[i]), s, store).Ok?
    ensures r.Ok? ==> |r.value| == |groups|
    ensures r.Ok? ==> forall i :: 0 <= i < |groups| ==> r.value[i] == RunGroup(groups[i], legacy(groups[i]), s, store).value
  {
    if |groups| == 0 then Ok([])
    else
      match RunGroup(groups[0], legacy(groups[0]), s, store)
      case Err(e) => Err(e)
      case Ok(first) =>
        match RunGroups(groups[1..], legacy, s, store)
        case Err(e) => Err(e)
        case Ok(rest) => Ok([first] + rest)
  }

  function TotalMigrated(reports: seq<GroupReport>): nat
  {
    if |reports| == 0 then 0 else reports[0].migrated + TotalMigrated(reports[1..])
  }

  function TotalErrors(reports: seq<GroupReport>): nat
  {
    if |reports| == 0 then 0 else reports[0].errors + TotalErrors(reports[1..])
  }

  /** The totals `main` reports, with the per-group reports they sum. */
  datatype Summary = Summary(reports: seq<GroupReport>, migrated: nat, errors: nat)

  /**
    `main` after configuration: read the watermarks (an error aborts), then
    migrate each group in turn; the totals are the sums of the group counts.
   */
  function Migration(agg: AggReply, legacy: Watermark -> GroupSource, s: Settings, store: Store): (r: Result<Summary>)
    requires HonestStore(store)
    ensures ResolveWatermarks(agg).Err? ==> r.Err?
    ensures ResolveWatermarks(agg) == Ok([]) ==> r == Ok(Summary([], 0, 0))
    ensures r.Ok? ==> (
      && ResolveWatermarks(agg).Ok?
      && |r.value.reports| == |ResolveWatermarks(agg).value|
      && (forall i :: 0 <= i < |r.value.reports| ==> r.value.reports[i].group == ResolveWatermarks(agg).value[i])
      && r.value.migrated == TotalMigrated(r.value.reports) && r.value.errors == TotalErrors(r.value.reports))
    ensures r.Ok? && s.dryRun ==> forall i :: 0 <= i < |r.value.reports| ==> r.value.reports[i].requests == []
    ensures ResolveWatermarks(agg).Ok? ==>
      var groups := ResolveWatermarks(agg).value;
      (r.Ok? <==> forall i :: 0 <= i < |groups| ==> RunGroup(groups[i], legacy(groups[i]), s, store).Ok?)
      && (r.Ok? ==> forall i :: 0 <= i < |groups| ==>
            r.value.reports[i] == RunGroup(groups[i], legacy(groups[i]), s, store).value)
  {
    match ResolveWatermarks(agg)
    case Err(e) => Err(e)
    case Ok(groups) =>
      match RunGroups(groups, legacy, s, store)
      case Err(e) => Err(e)
      case Ok(reports) => Ok(Summary(reports, TotalMigrated(reports), TotalErrors(reports)))
  }

  /** Total counts add up over consecutive runs of groups. */
  lemma {:induction false} TotalsAppend(a: seq<GroupReport>, b: seq<GroupReport>)
    ensures TotalMigrated(a + b) == TotalMigrated(a) + TotalMigrated(b)
    ensures TotalErrors(a + b) == TotalErrors(a) + TotalErrors(b)
  {
    if |a| > 0 {
      assert (a + b)[1..] == a[1..] + b;
      TotalsAppend(a[1..], b);
    } else {
      assert a + b == b;
    }
  }
}

=== FILE: recorder.dfy ===
/**
  The message recorder: which incoming Telegram messages are archived, and
  how one becomes a `ChatMessage` for the indexer.
 */
module Recorder {
  import opened Common
  import opened Message

  const U64_LIMIT: nat := 0x1_0000_0000_0000_0000

  /** `u64 as i64`: ids from 2^63 up wrap to negative values. */
  function AsI64(u: nat): (i: int)
    requires u < U64_LIMIT
    ensures IsI64(i)
    ensures u <= I64_MAX ==> i == u
    ensures u > I64_MAX ==> i < 0 && i + U64_LIMIT == u
  {
    if u <= I64_MAX then u else u - U64_LIMIT
  }

  /** The sender of a message, as far as the recorder reads it. */
  datatype User = User(id: nat, username: Option<string>, firstName: string, lastName: Option<string>)

  datatype ChatKind = Private | Group | Supergroup | Channel

  /**
    The parts of an incoming Telegram message the recorder reads: ids, chat,
    sender, date, text or caption, the message replied to, and which kind of
    media it carries.
   */
  datatype TgMessage = TgMessage(
    id: int,
    chatId: int,
    chatKind: ChatKind,
    chatTitle: Option<string>,
    from: Option<User>,
    date: int,
    text: Option<string>,
    caption: Option<string>,
    replyTo: Option<int>,
    hasPhoto: bool,
    hasVideo: bool,
    hasDocument: bool,
    hasSticker: bool,
    hasVoice: bool,
    hasAnimation: bool)

  /** The fields' own ranges: Telegram message ids are `i32`, chat ids `i64`, user ids `u64`. */
  predicate WellFormed(m: TgMessage)
  {
    IsI32(m.id) && IsI64(m.chatId) && (m.from.Some? ==> m.from.value.id < U64_LIMIT)
    && (m.replyTo.Some? ==> IsI32(m.replyTo.value))
  }

  /** `extract_text`: the text, else the caption, else nothing. */
  function ExtractText(m: TgMessage): (t: string)
    ensures m.text.Some? ==> t == m.text.value
    ensures m.text.None? && m.caption.Some? ==> t == m.caption.value
    ensures m.text.None? && m.caption.None? ==> t == ""
  {
    if m.text.Some? then m.text.value else m.caption.GetOr("")
  }

  /** The checks of `classify_message`, in order. */
  function Checks(m: TgMessage): seq<bool>
  {
    [m.text.Some?, m.hasPhoto, m.hasVideo, m.hasDocument, m.hasSticker, m.hasVoice, m.hasAnimation]
  }

  /** `classify_message`: the first kind whose check holds, text first; `Other` when none does. */
  function Classify(m: TgMessage): MessageType
  {
    if m.text.Some? then Text
    else if m.hasPhoto then Photo
    else if m.hasVideo then Video
    else if m.hasDocument then Document
    else if m.hasSticker then Sticker
    else if m.hasVoice then Voice
    else if m.hasAnimation then Animation
    else Other
  }

  /**
    The kind is the first entry of the kinds list (text, photo, video,
    document, sticker, voice, animation) whose check holds, or `Other`.
   */
  lemma ClassifyIsFirstMatch(m: TgMessage)
    ensures var k := Classify(m);
      && (k == Other <==> forall i :: 0 <= i < 7 ==> !Checks(m)[i])
      && (k != Other ==> exists i :: 0 <= i < 7 && AllTypes[i] == k && Checks(m)[i] && forall j :: 0 <= j < i ==> !Checks(m)[j])
  {
    var c := Checks(m);
    var k := Classify(m);
    if k != Other {
      var i := if k == Text then 0 else if k == Photo then 1 else if k == Video then 2
        else if k == Document then 3 else if k == Sticker then 4 else if k == Voice then 5 else 6;
      assert AllTypes[i] == k;
      assert c[i] && forall j :: 0 <= j < i ==> !c[j];
    }
  }

  /** A message with text is a text message, whatever media it carries. */
  lemma TextWins(m: TgMessage)
    requires m.text.Some?
    ensures Classify(m) == Text && ExtractText(m) == m.text.value
  {
  }

  /** `first last`, or `first` alone, or nothing when there is no sender. */
  function SenderName(from: Option<User>): (name: string)
    ensures from.None? ==> name == ""
    ensures from.Some? && from.value.lastName.None? ==> name == from.value.firstName
    ensures from.Some? && from.value.lastName.Some? ==>
      |name| == |from.value.firstName| + 1 + |from.value.lastName.value|
      && name[..|from.value.firstName|] == from.value.firstName
      && name[|from.value.firstName|] == ' '
      && name[|from.value.firstName| + 1..] == from.value.lastName.value
  {
    match from
    case None => ""
    case Some(u) =>
      match u.lastName
      case Some(last) => u.firstName + " " + last
      case None => u.firstName
  }

  /** Only group and supergroup messages with some text or caption are archived. */
  predicate Archived(m: TgMessage)
  {
    (m.chatKind == Group || m.chatKind == Supergroup) && ExtractText(m) != ""
  }

  /**
    `record_message`: for an archived message, the `ChatMessage` handed to
    the indexer, with the sender's id, username and name when there is a
    sender, the text or caption, and the kind.
   */
  function RecordMessage(m: TgMessage): (r: Option<ChatMessage>)
    requires WellFormed(m)
    ensures r.Some? <==> Archived(m)
    ensures r.Some? ==> r.value.messageId == m.id && r.value.chatId == m.chatId && r.value.date == m.date
    ensures r.Some? ==> r.value.text == ExtractText(m) && r.value.text != ""
    ensures r.Some? ==> (r.value.userId.Some? <==> m.from.Some?)
    ensures r.Some? && m.from.Some? ==> r.value.userId == Some(AsI64(m.from.value.id)) && r.value.username == m.from.value.username
    ensures r.Some? && m.from.None? ==> r.value.username == None && r.value.displayName == ""
    ensures r.Some? ==> r.value.displayName == SenderName(m.from)
    ensures r.Some? ==> r.value.messageType == Classify(m) && r.value.chatTitle == m.chatTitle
    ensures r.Some? ==> r.value.replyToMessageId == m.replyTo
  {
    if !Archived(m) then None
    else
      Some(ChatMessage(
        m.id,
        m.chatId,
        if m.from.Some? then Some(AsI64(m.from.value.id)) else None,
        if m.from.Some? then m.from.value.username else None,
        SenderName(m.from),
        ExtractText(m),
        m.date,
        m.replyTo,
        Classify(m),
        m.chatTitle))
  }

  /**
    The text of an archived message is its text when it is a text message
    and its caption otherwise.
   */
  lemma RecordedTextSource(m: TgMessage)
    requires WellFormed(m) && Archived(m)
    ensures var r := RecordMessage(m).value;
      && (r.messageType == Text ==> Some(r.text) == m.text)
      && (r.messageType != Text ==> Some(r.text) == m.caption)
  {
  }

  /**
    The index document of an archived message reads back with the Telegram
    message's ids, date, text or caption, and kind.
   */
  lemma RecordedMessageStoredIntact(m: TgMessage)
    requires WellFormed(m) && Archived(m)
    ensures var back := Deserialize(Serialize(RecordMessage(m).value));
      && back.Some? && back.value.messageId == m.id && back.value.chatId == m.chatId
      && back.value.date == m.date && back.value.text == ExtractText(m) && back.value.messageType == Classify(m)
  {
    SerializeRoundTrip(RecordMessage(m).value);
  }
}

=== FILE: search.dfy ===
/**
  The search client: the bool query built from a group's search parameters,
  the page offset, and the reading of a search reply into hits and a page
  count.
 */
module Search {
  import opened Common
  import opened Message

  /** What a search asks for; `page` counts from 0. */
  datatype SearchParams = SearchParams(
    chatId: int,
    keyword: Option<string>,
    userId: Option<int>,
    dateFrom: Option<int>,
    dateTo: Option<int>,
    messageType: Option<string>,
    page: nat,
    pageSize: nat)

  /** The default parameters: first page of five, no filter, no keyword. */
  const DefaultParams: SearchParams := SearchParams(0, None, None, None, None, None, 0, 5)

  // ---------------------------------------------------------------------
  // Query
  // ---------------------------------------------------------------------

  /** A scoring clause of the bool query. */
  datatype MustClause = MatchAll | MatchText(keyword: string)

  /** A filter clause of the bool query. */
  datatype FilterClause =
    | TermChat(chatId: int)
    | TermUser(userId: int)
    | DateRange(gte: Option<int>, lte: Option<int>)
    | TermType(messageType: string)

  datatype Query = Query(must: seq<MustClause>, filter: seq<FilterClause>)

  function NumPresent(p: SearchParams): nat
  {
    (if p.userId.Some? then 1 else 0)
    + (if p.dateFrom.Some? || p.dateTo.Some? then 1 else 0)
    + (if p.messageType.Some? then 1 else 0)
  }

  /**
    `build_query`: the chat term always comes first; user, date range and
    kind filters follow when given; a non-empty keyword is the one scoring
    clause, and without one the query matches everything.
   */
  function BuildQuery(p: SearchParams): (q: Query)
    ensures |q.filter| == 1 + NumPresent(p) && q.filter[0] == TermChat(p.chatId)
    ensures |q.must| == 1
    ensures q.must[0].MatchText? <==> p.keyword.Some? && p.keyword.value != ""
    ensures q.must[0].MatchText? ==> q.must[0].keyword == p.keyword.value
    ensures (exists i :: 0 <= i < |q.filter| && q.filter[i].DateRange?) <==> p.dateFrom.Some? || p.dateTo.Some?
    ensures forall i :: 0 <= i < |q.filter| && q.filter[i].DateRange? ==> q.filter[i] == DateRange(p.dateFrom, p.dateTo)
  {
    var user := if p.userId.Some? then [TermUser(p.userId.value)] else [];
    var range := if p.dateFrom.Some? || p.dateTo.Some? then [DateRange(p.dateFrom, p.dateTo)] else [];
    var kind := if p.messageType.Some? then [TermType(p.messageType.value)] else [];
    var must := if p.keyword.Some? && p.keyword.value != "" then [MatchText(p.keyword.value)] else [MatchAll];
    var filter := [TermChat(p.chatId)] + user + range + kind;
    assert forall i :: 1 <= i < |filter| ==> !filter[i].TermChat?;
    assert range != [] ==> filter[1 + |user|] == DateRange(p.dateFrom, p.dateTo);
    assert range == [] ==> forall i :: 0 <= i < |filter| ==> !filter[i].DateRange?;
    Query(must, filter)
  }

  /**
    What a query admits. Full-text relevance is the index's business:
    `matches(keyword, text)` stands for its analyzer.
   */
  predicate MustHolds(c: MustClause, m: ChatMessage, matches: (string, string) -> bool)
  {
    match c
    case MatchAll => true
    case MatchText(k) => matches(k, m.text)
  }

  predicate FilterHolds(c: FilterClause, m: ChatMessage)
  {
    match c
    case TermChat(id) => m.chatId == id
    case TermUser(id) => m.userId == Some(id)
    case DateRange(gte, lte) => (gte.None? || gte.value <= m.date) && (lte.None? || m.date <= lte.value)
    case TermType(t) => TypeName(m.messageType) == t
  }

  predicate Admits(q: Query, m: ChatMessage, matches: (string, string) -> bool)
  {
    && (forall i :: 0 <= i < |q.must| ==> MustHolds(q.must[i], m, matches))
    && (forall i :: 0 <= i < |q.filter| ==> FilterHolds(q.filter[i], m))
  }

  /** The messages a search is meant to find, read directly off its parameters. */
  predicate Wanted(p: SearchParams, m: ChatMessage, matches: (string, string) -> bool)
  {
    && m.chatId == p.chatId
    && (p.keyword.None? || p.keyword.value == "" || matches(p.keyword.value, m.text))
    && (p.userId.None? || m.userId == p.userId)
    && (p.dateFrom.None? || p.dateFrom.value <= m.date)
    && (p.dateTo.None? || m.date <= p.dateTo.value)
    && (p.messageType.None? || TypeName(m.messageType) == p.messageType.value)
  }

  /** The built query admits exactly the wanted messages; in particular never another group's. */
  lemma BuildQueryMeaning(p: SearchParams, m: ChatMessage, matches: (string, string) -> bool)
    ensures Admits(BuildQuery(p), m, matches) <==> Wanted(p, m, matches)
    ensures Admits(BuildQuery(p), m, matches) ==> m.chatId == p.chatId
  {
    var q := BuildQuery(p);
    var user := if p.userId.Some? then [TermUser(p.userId.value)] else [];
    var range := if p.dateFrom.Some? || p.dateTo.Some? then [DateRange(p.dateFrom, p.dateTo)] else [];
    var kind := if p.messageType.Some? then [TermType(p.messageType.value)] else [];
    assert q.filter == [TermChat(p.chatId)] + user + range + kind;
    if Wanted(p, m, matches) {
      forall i | 0 <= i < |q.filter|
        ensures FilterHolds(q.filter[i], m)
      {
      }
    }
    if Admits(q, m, matches) {
      assert FilterHolds(q.filter[0], m);
      if p.userId.Some? {
        assert FilterHolds(q.filter[1], m);
      }
      var k := 1 + |user|;
      if p.dateFrom.Some? || p.dateTo.Some? {
        assert q.filter[k] == DateRange(p.dateFrom, p.dateTo);
        assert FilterHolds(q.filter[k], m);
      }
      if p.messageType.Some? {
        assert q.filter[k + |range|] == TermType(p.messageType.value);
        assert FilterHolds(q.filter[k + |range|], m);
      }
      assert MustHolds(q.must[0], m, matches);
    }
  }

  /** Unfiltered defaults: everything in chat 0 matches, first page, five per page. */
  lemma DefaultParamsQuery()
    ensures BuildQuery(DefaultParams) == Query([MatchAll], [TermChat(0)])
    ensures DefaultParams.page == 0 && DefaultParams.pageSize == 5
  {
  }

  // ---------------------------------------------------------------------
  // Pagination
  // ---------------------------------------------------------------------

  /** `from` of the request: the number of hits on the pages before this one. */
  function Offset(p: SearchParams): nat
  {
    p.page * p.pageSize
  }

  /** Pages tile the hit list: hit `n` is on page `page` exactly when `page == n / pageSize`. */
  lemma PagesTile(p: SearchParams, n: nat)
    requires p.pageSize > 0
    ensures Offset(p) <= n < Offset(p) + p.pageSize <==> p.page == n / p.pageSize
  {
    var q, k := n / p.pageSize, p.page;
    assert q * p.pageSize <= n < q * p.pageSize + p.pageSize;
    if k < q {
      assert (k + 1) * p.pageSize <= q * p.pageSize;
    } else if k > q {
      assert (q + 1) * p.pageSize <= k * p.pageSize;
    }
  }

  /**
    `total_pages`: none without hits, otherwise the rounded-up quotient. The
    rounding (`div_ceil`) panics on a zero page size, which callers never pass
    with hits present.
   */
  function TotalPages(total: nat, pageSize: nat): (n: nat)
    requires total == 0 || pageSize > 0
    ensures total == 0 ==> n == 0
    ensures total > 0 ==> (n - 1) * pageSize < total <= n * pageSize
  {
    if total == 0 then 0 else (total + pageSize - 1) / pageSize
  }

  /** A page has hits exactly when it is one of the `total_pages` pages. */
  lemma PageInRange(p: SearchParams, total: nat)
    requires p.pageSize > 0
    ensures p.page < TotalPages(total, p.pageSize) <==> Offset(p) < total
  {
    var n := TotalPages(total, p.pageSize);
    if p.page < n {
      assert p.page * p.pageSize <= (n - 1) * p.pageSize;
    } else if total > 0 {
      assert n * p.pageSize <= p.page * p.pageSize;
    }
  }

  // ---------------------------------------------------------------------
  // Reply
  // ---------------------------------------------------------------------

  /** One entry of `hits.hits`: its `_source`, and `highlight.text` when it is an array. */
  datatype Hit = Hit(source: Doc, highlightText: Option<seq<Json>>)

  /** The parts of a search reply body the code reads. */
  datatype ReplyBody = ReplyBody(total: Option<nat>, hits: Option<seq<Hit>>)

  datatype SearchHit = SearchHit(message: ChatMessage, highlight: Option<string>)

  datatype SearchResult = SearchResult(total: nat, messages: seq<SearchHit>, page: nat, totalPages: nat)

  /** The first highlight fragment, when it is a string. */
  function FirstFragment(h: Hit): (r: Option<string>)
    ensures r.Some? <==> h.highlightText.Some? && |h.highlightText.value| > 0 && h.highlightText.value[0].JStr?
    ensures r.Some? ==> r.value == h.highlightText.value[0].s
  {
    match h.highlightText
    case Some(arr) => if |arr| > 0 && arr[0].JStr? then Some(arr[0].s) else None
    case None => None
  }

  /** The hits whose source reads back as a message, in reply order. */
  function ParseHits(hits: seq<Hit>): (r: seq<SearchHit>)
    ensures |r| <= |hits|
    ensures (forall i :: 0 <= i < |hits| ==> Deserialize(hits[i].source).Some?) ==>
      |r| == |hits| && forall i :: 0 <= i < |hits| ==>
        r[i] == SearchHit(Deserialize(hits[i].source).value, FirstFragment(hits[i]))
    ensures (forall i :: 0 <= i < |hits| ==> Deserialize(hits[i].source).None?) ==> r == []
    ensures |hits| > 0 && Deserialize(hits[0].source).None? ==> r == ParseHits(hits[1..])
  {
    if |hits| == 0 then []
    else
      var rest := ParseHits(hits[1..]);
      match Deserialize(hits[0].source)
      case Some(m) => [SearchHit(m, FirstFragment(hits[0]))] + rest
      case None => rest
  }

  /** Dropping an unparsable hit does not disturb the others. */
  lemma {:induction false} ParseHitsAppend(a: seq<Hit>, b: seq<Hit>)
    ensures ParseHits(a + b) == ParseHits(a) + ParseHits(b)
  {
    if |a| == 0 {
      assert a + b == b;
    } else {
      assert (a + b)[1..] == a[1..] + b;
      ParseHitsAppend(a[1..], b);
    }
  }

  /** Hits whose sources are stored messages read back as those messages, one for one. */
  lemma StoredHitsParse(ms: seq<ChatMessage>, hits: seq<Hit>)
    requires |hits| == |ms| && forall i :: 0 <= i < |ms| ==> hits[i].source == Serialize(ms[i])
    ensures |ParseHits(hits)| == |ms|
    ensures forall i :: 0 <= i < |ms| ==> ParseHits(hits)[i].message == Stored(ms[i])
  {
    forall i | 0 <= i < |ms|
      ensures Deserialize(hits[i].source) == Some(Stored(ms[i]))
    {
      SerializeRoundTrip(ms[i]);
    }
  }

  /**
    `parse_response`: a missing total reads as 0, missing hits as none;
    hits that do not read back as messages are skipped, and the requested
    page is echoed.
   */
  function ParseResponse(body: ReplyBody, page: nat, pageSize: nat): (r: SearchResult)
    requires body.total.GetOr(0) == 0 || pageSize > 0
    ensures r.total == body.total.GetOr(0) && r.page == page
    ensures r.totalPages == TotalPages(r.total, pageSize)
    ensures |r.messages| <= |body.hits.GetOr([])|
    ensures r.messages == ParseHits(body.hits.GetOr([]))
  {
    var total := body.total.GetOr(0);
    SearchResult(total, ParseHits(body.hits.GetOr([])), page, TotalPages(total, pageSize))
  }

  /** The request `search` sends: the query, the offset and the page size. */
  datatype SearchRequest = SearchRequest(query: Query, from: nat, size: nat)

  datatype SearchReply = SearchSendFailed | SearchReplied(status: int, body: Option<ReplyBody>)

  /**
    `search`: sends the built query for the requested page; a failed send, a
    non-2xx status or an unreadable body is an error, anything else is read
    by `ParseResponse`.
   */
  function Search(p: SearchParams, reply: SearchReply): (r: (SearchRequest, Result<SearchResult>))
    requires reply.SearchReplied? && reply.body.Some? ==> reply.body.value.total.GetOr(0) == 0 || p.pageSize > 0
    ensures r.0 == SearchRequest(BuildQuery(p), p.page * p.pageSize, p.pageSize)
    ensures r.1.Ok? <==> reply.SearchReplied? && IsSuccess(reply.status) && reply.body.Some?
    ensures r.1.Ok? ==> r.1.value.page == p.page && r.1.value.total == reply.body.value.total.GetOr(0)
    ensures r.1.Ok? ==> r.1.value.messages == ParseHits(reply.body.value.hits.GetOr([]))
  {
    var request := SearchRequest(BuildQuery(p), Offset(p), p.pageSize);
    match reply
    case SearchSendFailed => (request, Err("search request failed"))
    case SearchReplied(status, body) =>
      if !IsSuccess(status) then (request, Err("Search failed"))
      else if body.None? then (request, Err("unreadable search response"))
      else (request, Ok(ParseResponse(body.value, p.page, p.pageSize)))
  }
}

=== FILE: user_cache.dfy ===
/**
  The user cache: which user id answers to a username (matched without
  leading '@'s and without regard to ASCII case), and the display name last
  seen for each user. Every recorded message updates it.
 */
module UserCache {
  import opened Common

  /** What the cache remembers about one user. */
  datatype UserInfo = UserInfo(displayName: string, username: Option<string>)

  /** Lower-cased username to user id, and user id to what was last seen. */
  datatype Cache = Cache(nameToId: map<string, int>, idToInfo: map<int, UserInfo>)

  const Empty: Cache := Cache(map[], map[])

  /** The key a username is filed under. */
  function Key(username: string): string
  {
    Lower(username)
  }

  /** The key the user was filed under before this update, when it is to be dropped. */
  function StaleKey(c: Cache, userId: int, username: Option<string>): Option<string>
  {
    if userId in c.idToInfo && c.idToInfo[userId].username.Some?
       && Some(Key(c.idToInfo[userId].username.value)) != (if username.Some? then Some(Key(username.value)) else None)
    then Some(Key(c.idToInfo[userId].username.value))
    else None
  }

  /** The cache after the name mappings are adjusted and the user's info replaced. */
  function Refile(c: Cache, dropped: Option<string>, userId: int, username: Option<string>, displayName: string): Cache
  {
    var kept := if dropped.Some? then c.nameToId - {dropped.value} else c.nameToId;
    var names := if username.Some? then kept[Key(username.value) := userId] else kept;
    Cache(names, c.idToInfo[userId := UserInfo(displayName, username)])
  }

  /**
    `UserCache::update` as written: when the user's previous username (case
    aside) differs from the new one, or the new one is absent, the previous
    name's mapping is removed, whoever it now points to.
   */
  function UpdateAsWritten(c: Cache, userId: int, username: Option<string>, displayName: string): (r: Cache)
    ensures DisplayName(r, userId) == Some(displayName)
    ensures forall id :: id != userId ==> DisplayName(r, id) == DisplayName(c, id)
    ensures r.idToInfo.Keys == c.idToInfo.Keys + {userId}
    ensures r.idToInfo == c.idToInfo[userId := UserInfo(displayName, username)]
    ensures username.Some? ==> Key(username.value) in r.nameToId && r.nameToId[Key(username.value)] == userId
    ensures StaleKey(c, userId, username).Some? ==> StaleKey(c, userId, username).value !in r.nameToId
    ensures forall n :: n in c.nameToId && Some(n) != StaleKey(c, userId, username) ==>
      n in r.nameToId && (r.nameToId[n] == c.nameToId[n] || (username.Some? && n == Key(username.value)))
    ensures forall n :: n in r.nameToId ==> n in c.nameToId || (username.Some? && n == Key(username.value))
  {
    Refile(c, StaleKey(c, userId, username), userId, username, displayName)
  }

  /**
    A user who gave up a name which another user then took, and who later
    posts under a new name, takes the other user's name out of the cache.
   */
  lemma UpdateAsWrittenDropsTakenName()
    ensures var c1 := UpdateAsWritten(Empty, 1, Some("alice"), "Alice");
            var c2 := UpdateAsWritten(c1, 2, Some("alice"), "Alice B");
            var c3 := UpdateAsWritten(c2, 1, Some("bob"), "Bob");
            && Resolve(c2, "alice") == Some(2)
            && Resolve(c3, "alice") == None
  {
    var c1 := UpdateAsWritten(Empty, 1, Some("alice"), "Alice");
    var c2 := UpdateAsWritten(c1, 2, Some("alice"), "Alice B");
    assert Key("alice") == "alice";
    assert Key("bob") == "bob";
    assert StaleKey(c2, 1, Some("bob")) == Some("alice");
  }

  /**
    As written, a user who changes name, or drops it, takes their previous
    name out of the cache altogether.
   */
  lemma UpdateAsWrittenForgetsOldName(c: Cache, userId: int, previous: string, username: Option<string>, displayName: string)
    requires userId in c.idToInfo && c.idToInfo[userId].username == Some(previous) && !StartsWithAt(previous)
    requires username.None? || Key(username.value) != Key(previous)
    ensures Resolve(UpdateAsWritten(c, userId, username, displayName), previous) == None
  {
  }

  /** The same three updates leave the name with the user who took it. */
  lemma UpdateKeepsTakenName()
    ensures var c1 := Update(Empty, 1, Some("alice"), "Alice");
            var c2 := Update(c1, 2, Some("alice"), "Alice B");
            var c3 := Update(c2, 1, Some("bob"), "Bob");
            Resolve(c3, "alice") == Some(2)
  {
    var c1 := Update(Empty, 1, Some("alice"), "Alice");
    var c2 := Update(c1, 2, Some("alice"), "Alice B");
    assert Key("alice") == "alice";
    assert Key("bob") == "bob";
    assert c2.nameToId["alice"] == 2;
  }

  /** The old name is dropped only while it still points to this user. */
  function StaleOwnKey(c: Cache, userId: int, username: Option<string>): (k: Option<string>)
    ensures k.Some? ==> k.value in c.nameToId && c.nameToId[k.value] == userId
  {
    var k := StaleKey(c, userId, username);
    if k.Some? && k.value in c.nameToId && c.nameToId[k.value] == userId then k else None
  }

  /**
    The update with the old name dropped only when it still points to the
    user: resolving any name of another user is unaffected, the user's new
    name resolves to them, and their new display name is what is seen.
   */
  function Update(c: Cache, userId: int, username: Option<string>, displayName: string): (r: Cache)
    ensures DisplayName(r, userId) == Some(displayName)
    ensures forall id :: id != userId ==> DisplayName(r, id) == DisplayName(c, id)
    ensures r.idToInfo.Keys == c.idToInfo.Keys + {userId}
    ensures r.idToInfo == c.idToInfo[userId := UserInfo(displayName, username)]
    ensures username.Some? ==> Key(username.value) in r.nameToId && r.nameToId[Key(username.value)] == userId
    ensures forall n :: n in c.nameToId && c.nameToId[n] != userId ==>
      n in r.nameToId && (r.nameToId[n] == c.nameToId[n] || (username.Some? && n == Key(username.value)))
    ensures forall n :: n in r.nameToId ==> n in c.nameToId || (username.Some? && n == Key(username.value))
  {
    Refile(c, StaleOwnKey(c, userId, username), userId, username, displayName)
  }

  /**
    The two updates differ only when the name being dropped has meanwhile
    been taken by another user.
   */
  lemma UpdateAgreesWithAsWritten(c: Cache, userId: int, username: Option<string>, displayName: string)
    requires var k := StaleKey(c, userId, username);
      k.None? || k.value !in c.nameToId || c.nameToId[k.value] == userId
    ensures UpdateAsWritten(c, userId, username, displayName) == Update(c, userId, username, displayName)
  {
    var k := StaleKey(c, userId, username);
    if k.Some? && k.value !in c.nameToId {
      assert c.nameToId - {k.value} == c.nameToId;
    }
  }

  /** `resolve_username`: leading '@'s stripped, ASCII case ignored; None for a name never seen. */
  function Resolve(c: Cache, username: string): (r: Option<int>)
    ensures r.Some? <==> Key(TrimAt(username)) in c.nameToId
    ensures r.Some? ==> r.value == c.nameToId[Key(TrimAt(username))]
  {
    var clean := Key(TrimAt(username));
    if clean in c.nameToId then Some(c.nameToId[clean]) else None
  }

  /** `get_display_name`: None for a user never seen. */
  function DisplayName(c: Cache, userId: int): (r: Option<string>)
    ensures r.Some? <==> userId in c.idToInfo
    ensures r.Some? ==> r.value == c.idToInfo[userId].displayName
  {
    if userId in c.idToInfo then Some(c.idToInfo[userId].displayName) else None
  }

  /** A name a user posted under resolves to them, with or without '@' and in any ASCII case. */
  lemma ResolveAfterUpdate(c: Cache, userId: int, username: string, displayName: string, asked: string)
    requires Key(TrimAt(asked)) == Key(username)
    ensures Resolve(UpdateAsWritten(c, userId, Some(username), displayName), asked) == Some(userId)
    ensures Resolve(Update(c, userId, Some(username), displayName), asked) == Some(userId)
  {
  }

  /** Asking with one more leading '@' does not change the answer. */
  lemma ResolveIgnoresAt(c: Cache, username: string)
    ensures Resolve(c, "@" + username) == Resolve(c, username)
  {
    assert ("@" + username)[1..] == username;
  }

  /**
    A user who changes name, or drops it, no longer answers to the old one,
    unless the old name already points to someone else.
   */
  lemma RenameForgetsOldName(c: Cache, userId: int, previous: string, username: Option<string>, displayName: string)
    requires userId in c.idToInfo && c.idToInfo[userId].username == Some(previous) && !StartsWithAt(previous)
    requires username.None? || Key(username.value) != Key(previous)
    ensures Resolve(Update(c, userId, username, displayName), previous) != Some(userId)
  {
  }

  /** A user seen without a username gains no name mapping. */
  lemma NoUsernameNoMapping(c: Cache, userId: int, displayName: string)
    ensures forall n :: n in UpdateAsWritten(c, userId, None, displayName).nameToId ==> n in c.nameToId
    ensures forall n :: n in Update(c, userId, None, displayName).nameToId ==> n in c.nameToId
  {
  }

  /** Seeing the same user with the same details twice changes nothing more. */
  lemma UpdateIdempotent(c: Cache, userId: int, username: Option<string>, displayName: string)
    ensures var once := UpdateAsWritten(c, userId, username, displayName);
            UpdateAsWritten(once, userId, username, displayName) == once
    ensures var once := Update(c, userId, username, displayName);
            Update(once, userId, username, displayName) == once
  {
    var w := UpdateAsWritten(c, userId, username, displayName);
    assert StaleKey(w, userId, username) == None;
    if username.Some? {
      assert w.nameToId[Key(username.value) := userId] == w.nameToId;
    }
    assert w.idToInfo[userId := UserInfo(displayName, username)] == w.idToInfo;
    var once := Update(c, userId, username, displayName);
    assert StaleKey(once, userId, username) == None;
    if username.Some? {
      assert once.nameToId[Key(username.value) := userId] == once.nameToId;
    }
    assert once.idToInfo[userId := UserInfo(displayName, username)] == once.idToInfo;
  }

  /**
    Every name mapping points to a user whose last-seen username is filed
    under that name.
   */
  ghost predicate Sound(c: Cache)
  {
    forall n :: n in c.nameToId ==>
      c.nameToId[n] in c.idToInfo && c.idToInfo[c.nameToId[n]].username.Some?
      && Key(c.idToInfo[c.nameToId[n]].username.value) == n
  }

  /** The cache starts sound and every update keeps it so: a name resolves only to its current holder. */
  lemma UpdateKeepsSound(c: Cache, userId: int, username: Option<string>, displayName: string)
    requires Sound(c)
    ensures Sound(UpdateAsWritten(c, userId, username, displayName))
    ensures Sound(Update(c, userId, username, displayName))
  {
    var w := UpdateAsWritten(c, userId, username, displayName);
    forall n | n in w.nameToId
      ensures w.nameToId[n] in w.idToInfo && w.idToInfo[w.nameToId[n]].username.Some?
              && Key(w.idToInfo[w.nameToId[n]].username.value) == n
    {
      if username.Some? && n == Key(username.value) {
      } else {
        assert n in c.nameToId && Some(n) != StaleKey(c, userId, username);
      }
    }
    var r := Update(c, userId, username, displayName);
    forall n | n in r.nameToId
      ensures r.nameToId[n] in r.idToInfo && r.idToInfo[r.nameToId[n]].username.Some?
              && Key(r.idToInfo[r.nameToId[n]].username.value) == n
    {
      if username.Some? && n == Key(username.value) {
      } else {
        assert n in c.nameToId && StaleOwnKey(c, userId, username) != Some(n);
      }
    }
  }

  /** In a sound cache a resolved name belongs to the user it resolves to. */
  lemma SoundResolve(c: Cache, username: string)
    requires Sound(c) && Resolve(c, username).Some?
    ensures var id := Resolve(c, username).value;
            id in c.idToInfo && c.idToInfo[id].username.Some?
            && Key(c.idToInfo[id].username.value) == Key(TrimAt(username))
  {
  }
}
